=== FILE: README.md ===
# OmniGUI core in Dafny

This project models three pieces of the OmniGUI toolkit and proves properties of them:

- **The XAML builder's binding bookkeeping** (`OmniGuiXamlBuilder` and `DataContextSubscription`).
  - The builder sends each assignment down one of three paths: observe declaration, bind declaration, or the base builder.
  - It keeps at most one handle per bind declaration in its `bindings` dictionary.
  - A data-context binding is a small state machine. It ignores null contexts. For each other context it disposes its current value subscription and installs a new one, chosen by the two direction flags.
  - A handler that throws is detached by the reactive runtime: its subscription is disposed before the exception reaches the data-context setter. One context that a binding cannot follow therefore ends that binding for good. The same holds for an observe binding.
  - The reactive runtime is abstract. A `World` holds the live subscriptions, each tagged with what it forwards, the next subscription id, and a trace of every subscribe, dispose and property write. A value subscription also records the data-context subscription whose handler created it.
  - Two leaks are modelled as written, not fixed. With both direction flags set, the first value subscription is overwritten without being disposed. Observe and templated-parent subscriptions are never recorded, so the builder never disposes them.
- **The Border layout** (`Border`).
  - `Child` is a one-element view over the children list, and its setter replaces the list.
  - Measuring deflates the available size by padding plus a uniform border, measures the child, and inflates the child's desired size back.
  - Arranging places the child in the deflated rectangle.
  - Rendering fills, then strokes, then renders the children.
- **The console rasteriser** (`ConsoleAdapter`).
  - Filling a rectangle sets the console colour once. It then plots every cell in row-major order, each at the truncated loop coordinates.
  - The first cell outside the console buffer raises an exception. The exception is swallowed, so what gets drawn is the longest in-buffer prefix of the raster.
  - All other drawing primitives throw "not implemented".

Files:

- `wrappers.dfy`: option, result and outcome types.
- `binding_model.dfy`: the runtime world and the binding code as pure steps.
- `binding_lemmas.dfy`: properties of those steps.
- `xaml_builder.dfy`: the builder and the data-context subscription as classes over a shared `EventHub`. The data-context handler, the observe handler and the three binding paths are proved equal to their pure steps. `PerformAssigment`, `AddExistingBinding` and `ClearExistingBinding` are specified by the runtime they leave behind (`ClearedWorld` and `AttachWorld`) together with the new contents of `bindings`.
- `geometry.dfy` and `drawing.dfy`: sizes, rectangles, thicknesses, colours, brushes and pens.
- `border.dfy`: the Border.
- `console_adapter.dfy`: the console drawing context.

## Model

| member | source | states |
|---|---|---|
| XamlBuilder.EventHub.Subscribe | OmniGui.Xaml/OmniGuiXamlBuilder.cs:133-134 | A subscription gets a fresh id. It becomes live with its forwarding kind and is appended to the trace. |
| XamlBuilder.EventHub.Dispose | OmniGui.Xaml/OmniGuiXamlBuilder.cs:183-184 | Disposing a live subscription stops it and records the disposal. Disposing one that is no longer live changes nothing. |
| XamlBuilder.EventHub.SetTarget | OmniGui.Xaml/OmniGuiXamlBuilder.cs:177 | A write to the target property is appended to the trace. Nothing else changes. |
| XamlBuilder.EventHub.BaseAssign | OmniGui.Xaml/OmniGuiXamlBuilder.cs:38 | An assignment handled by the base builder is appended to the trace. Nothing else changes. |
| XamlBuilder.DataContextSubscription.constructor | OmniGui.Xaml/OmniGuiXamlBuilder.cs:128-134 | Subscribes to the target's data-context changes under a fresh id. There is no value subscription yet. The subscription invariant holds. |
| XamlBuilder.DataContextSubscription.OnDataContext | OmniGui.Xaml/OmniGuiXamlBuilder.cs:133-148 | The new state and outcome are those of `ContextStep`. It keeps the invariant: ids increase, and with a single direction flag no value subscription other than the recorded one is live. The data-context subscription stays live exactly when the handler does not throw. When it throws, the runtime detaches it. |
| XamlBuilder.DataContextSubscription.SubscribeSourceToTarget | OmniGui.Xaml/OmniGuiXamlBuilder.cs:151-160 | Adds exactly one subscription, which writes target changes back to the model. It cannot fail. |
| XamlBuilder.DataContextSubscription.SubscribeTargetToSource | OmniGui.Xaml/OmniGuiXamlBuilder.cs:162-179 | A missing member fails, then a model that does not notify fails. Either failure leaves the runtime unchanged. Otherwise the member's current value is written to the target, and then one PropertyChanged subscription is added and returned. |
| XamlBuilder.DataContextSubscription.Dispose | OmniGui.Xaml/OmniGuiXamlBuilder.cs:181-185 | Disposes the recorded value subscription if there is one, then the data-context subscription. It is null-safe. |
| XamlBuilder.OmniGuiXamlBuilder.constructor | OmniGui.Xaml/OmniGuiXamlBuilder.cs:14-19 | Starts with no recorded bindings. |
| XamlBuilder.OmniGuiXamlBuilder.PerformAssigment | OmniGui.Xaml/OmniGuiXamlBuilder.cs:21-40 | An observe declaration wins and only adds its data-context subscription. Anything that is neither kind of declaration goes to the base builder unchanged. For a bind declaration: the old handle is disposed and removed; the Add never reports a duplicate key; on failure the key stays absent; on success the map gains exactly the entry for that declaration, and every other entry is unchanged. That entry is a fresh data-context subscription exactly when the source is the data context. |
| XamlBuilder.OmniGuiXamlBuilder.AddExistingBinding | OmniGui.Xaml/OmniGuiXamlBuilder.cs:42-45 | Fails with a duplicate key exactly when the declaration is already present, and then leaves the map unchanged. Otherwise it adds the entry. |
| XamlBuilder.OmniGuiXamlBuilder.ClearExistingBinding | OmniGui.Xaml/OmniGuiXamlBuilder.cs:47-54 | When the key is present, disposes its handle and then removes the key. When the key is absent, nothing changes. |
| XamlBuilder.OmniGuiXamlBuilder.BindToProperty | OmniGui.Xaml/OmniGuiXamlBuilder.cs:56-66 | A data-context declaration always yields a fresh tracked subscription with the next id. Any other declaration takes the templated-parent path and yields the empty handle on success. |
| XamlBuilder.OmniGuiXamlBuilder.BindToTemplatedParent | OmniGui.Xaml/OmniGuiXamlBuilder.cs:68-83 | A missing bag entry fails. It subscribes only when the target follows the source; a null parent or a missing property then fails. It always returns the empty handle. |
| XamlBuilder.OmniGuiXamlBuilder.BindToObservable | OmniGui.Xaml/OmniGuiXamlBuilder.cs:90-100 | Adds one data-context subscription and records it nowhere. |
| XamlBuilder.OmniGuiXamlBuilder.OnObservedContext | OmniGui.Xaml/OmniGuiXamlBuilder.cs:94-99 | The new runtime and outcome are those of `ObserveStep`. A null context is filtered out. Any other context goes to `BindSourceObservableToTarget`, which subscribes the context's named observable to the target property. When that call fails, the runtime disposes the handler's own subscription. |
| XamlBuilder.OmniGuiXamlBuilder.BindSourceObservableToTarget | OmniGui.Xaml/OmniGuiXamlBuilder.cs:102-110 | The named member must exist and hold an observable. Otherwise the call fails with a missing member, a null observable or a failed cast. On success it adds one forwarding subscription (`ForwardStep`). |
| BindingLemmas.StepKeepsValid | OmniGui.Xaml/OmniGuiXamlBuilder.cs:133-148 | Every run of the handler keeps the runtime consistent and never reuses an id. |
| BindingLemmas.NullContextIgnored | OmniGui.Xaml/OmniGuiXamlBuilder.cs:133 | A null data context changes nothing. |
| BindingLemmas.DisposeBeforeSubscribe | OmniGui.Xaml/OmniGuiXamlBuilder.cs:136-147 | On a non-null context the handler only appends to the trace. It disposes at most two subscriptions. The recorded value subscription is disposed first, before anything else, and exactly when it is live. When the handler throws, its own data-context subscription is disposed last. |
| BindingLemmas.FailureDetaches | OmniGui.Xaml/OmniGuiXamlBuilder.cs:133-148 | The handler's subscription stays live exactly when the handler passes. It fails exactly on a non-null context with target-follows-source set whose member is missing or which does not notify. |
| BindingLemmas.BadContextEndsBinding | OmniGui.Xaml/OmniGuiXamlBuilder.cs:162-168 | With target-follows-source set, a live data-context subscription and a consistent runtime, after a context whose member is missing or which does not notify, whatever contexts come next: the data-context subscription is gone, the recorded value subscription is disposed, and nothing is ever subscribed again. |
| BindingLemmas.TargetFollowsPushesCurrentFirst | OmniGui.Xaml/OmniGuiXamlBuilder.cs:137-141 | With target-follows-source alone and a model that has the member and notifies: the member's current value is written to the target first, then the PropertyChanged subscription is added, and that subscription is recorded. |
| BindingLemmas.SingleFlagStep | OmniGui.Xaml/OmniGuiXamlBuilder.cs:136-147 | With a single direction flag and a consistent runtime, "only the recorded value subscription is live", if it holds before a context, holds after it. |
| BindingLemmas.SingleFlagOwnsAtMostOne | OmniGui.Xaml/OmniGuiXamlBuilder.cs:133-148 | With a single direction flag, starting from a consistent runtime in which at most the recorded value subscription is live, after any sequence of contexts at most one value subscription of the binding is live, and it is the recorded one. |
| BindingLemmas.BothFlagsLeak | OmniGui.Xaml/OmniGuiXamlBuilder.cs:137-146 | With both flags, one context whose model has the member and notifies creates two value subscriptions. Only the second is recorded. The first stays live. |
| BindingLemmas.BothFlagsLeakGrows | OmniGui.Xaml/OmniGuiXamlBuilder.cs:137-146 | With both flags, once a value subscription is recorded and live, each further usable context (the model has the member and notifies) adds exactly one live value subscription. |
| BindingLemmas.BothFlagsLeakAccumulates | OmniGui.Xaml/OmniGuiXamlBuilder.cs:137-146 | With both flags, n ≥ 1 usable contexts, from a binding that owns no value subscription yet, leave n + 1 value subscriptions live. |
| BindingLemmas.DisposeReleasesRecorded | OmniGui.Xaml/OmniGuiXamlBuilder.cs:181-185 | Dispose stops the data-context subscription and the recorded value subscription, and no other value subscription. |
| BindingLemmas.SingleFlagDisposeReleasesAll | OmniGui.Xaml/OmniGuiXamlBuilder.cs:181-185 | In a consistent runtime in which at most the recorded value subscription is live (what SingleFlagOwnsAtMostOne keeps with a single flag), nothing of the binding is live after Dispose. |
| BindingLemmas.LeakSurvivesDispose | OmniGui.Xaml/OmniGuiXamlBuilder.cs:181-185 | With both flags, after a usable context, the overwritten target-follows-source subscription is still live after Dispose. |
| BindingLemmas.TargetFollowsReaction | OmniGui.Xaml/OmniGuiXamlBuilder.cs:169-178 | Target-follows-source reacts exactly to PropertyChanged of its own model for its source member. When the changed model has that member, it writes the member's value after the change; otherwise it faults with a missing member. |
| BindingLemmas.ParentAndForwardReactions | OmniGui.Xaml/OmniGuiXamlBuilder.cs:76-110 | A templated-parent subscription reacts exactly to changes of the parent's source property and writes each value into the target. An observe forwarding reacts exactly to its stream's values and writes each into the target. Neither faults. |
| BindingLemmas.SourceFollowsReaction | OmniGui.Xaml/OmniGuiXamlBuilder.cs:154-159 | Source-follows-target reacts exactly to changes of the target property. When the model has the member, it writes each value back to it; otherwise every change faults with a missing member, although subscribing succeeded. |
| BindingLemmas.SingleFlagDeliversAtMostOnce | OmniGui.Xaml/OmniGuiXamlBuilder.cs:136-147 | When at most the recorded value subscription is live, any event reaches at most one of the binding's value subscriptions. |
| BindingLemmas.SingleFlagForgetsOldContext | OmniGui.Xaml/OmniGuiXamlBuilder.cs:136-141 | With target-follows-source alone, a consistent runtime in which at most the recorded value subscription is live, and a new model that has the member and notifies, once that model is the context, PropertyChanged events of any other model reach none of the binding's value subscriptions. |
| BindingLemmas.StaleContextStillPushes | OmniGui.Xaml/OmniGuiXamlBuilder.cs:137-146 | With both flags, after the context moves from m1 to m2, both having the member and notifying, a PropertyChanged event of m1 is still written into the target. |
| BindingLemmas.ObserveForwardsNeverReleased | OmniGui.Xaml/OmniGuiXamlBuilder.cs:90-110 | An observe binding never disposes a forwarding subscription, nor anything else except its own data-context subscription. Each delivered context whose member holds an observable adds one more forwarding subscription. The handler stays subscribed exactly when no context made it throw. |
| BindingLemmas.TemplatedParentSubscribesOnlyWhenFollowing | OmniGui.Xaml/OmniGuiXamlBuilder.cs:68-83 | The templated-parent path changes the runtime only when the target follows the source. It then writes the current value and adds exactly one parent subscription. It fails exactly on a missing bag entry, a null parent or a missing property. |
| BindingLemmas.RebindDisposesFirst | OmniGui.Xaml/OmniGuiXamlBuilder.cs:30-35 | When the new attachment succeeds, re-processing a declaration appends only disposals for the old data-context subscription, followed by effects that dispose nothing. |
| Layouts.ChildLayout.Measure | OmniGui/Layouts/Border.cs:22 | The child records the size it was offered. Its desired size becomes what its own policy gives for that size. |
| Layouts.ChildLayout.Arrange | OmniGui/Layouts/Border.cs:55 | The child records the rectangle it was given. Its measurement is untouched. |
| Layouts.Border.constructor | OmniGui/Layouts/Border.cs:11-13 | A new Border has no children and zero padding, border thickness and corner radius. |
| Layouts.Border.Child | OmniGui/Layouts/Border.cs:35 | The child is null exactly when the list is empty or starts with null. Otherwise it is the first element of the list. |
| Layouts.Border.SetChild | OmniGui/Layouts/Border.cs:36-40 | After the assignment the list is exactly `[v]`, whatever it held before, and the getter returns `v`. Every other property is unchanged. |
| Layouts.Border.MeasureOverride | OmniGui/Layouts/Border.cs:15-29 | The result is `MeasuredSize` of the child's policy. With a child, the child is first measured against the available size deflated by padding plus border, and the result is the child's new desired size inflated by the same thickness. |
| Layouts.Border.ArrangeOverride | OmniGui/Layouts/Border.cs:48-59 | Returns `finalSize` unchanged. A child is arranged in `Rect(finalSize)` deflated by padding plus border. |
| Layouts.Border.Render | OmniGui/Layouts/Border.cs:66-72 | Exactly three calls, in order: fill of the visual bounds, stroke of the visual bounds with the border pen, then the base rendering of the children. |
| Layouts.EmptyBorderSize | OmniGui/Layouts/Border.cs:18-27 | With no child the desired size is padding left + right + 2 × border by padding top + bottom + 2 × border. |
| Layouts.MeasureExample | OmniGui/Layouts/Border.cs:18-23 | A 100 × 50 child with padding 10 and border 2 gives 124 × 74. |
| Layouts.FittingChildFits | OmniGui/Layouts/Border.cs:18-23 | When the available size holds the padding plus border, a child that fits the space offered to it makes the Border fit its own available space. |
| Layouts.ChromeIsMinimum | OmniGui/Layouts/Border.cs:15-29 | When the child's desired size is not negative, the Border never asks for less than its padding plus border. |
| Layouts.SlotMatchesMeasure | OmniGui/Layouts/Border.cs:48-59 | For a non-negative thickness that fits in `finalSize`, the child's slot has size `Deflate(finalSize, chrome)` and lies inside the Border. That is the size the child was measured against when the Border is arranged at the size it was measured with. |
| Geometry.DeflateUndoesInflate | OmniGui/Layouts/Border.cs:22-23 | Deflating undoes inflating for sizes that are not negative. |
| Geometry.InflateAfterDeflate | OmniGui/Layouts/Border.cs:22-23 | Inflating a deflated size gives it back when the thickness fits. Otherwise it gives the thickness alone. |
| Console.TruncTowardZero | OmniGui.Console/ConsoleAdapter.cs:30-31 | `(int)x` moves toward zero by less than one. |
| Console.StepsCount | OmniGui.Console/ConsoleAdapter.cs:15-17 | Iteration j of `for (v = s; v < s + len; v++)` runs exactly when j < len. |
| Console.FirstOutside | OmniGui.Console/ConsoleAdapter.cs:12-25 | Every cell before the returned index is inside the buffer, and the cell at it is not. |
| Console.Terminal.SetForeground | OmniGui.Console/ConsoleAdapter.cs:14 | Setting the foreground colour is logged. The cursor does not move. |
| Console.Terminal.SetCursorPosition | OmniGui.Console/ConsoleAdapter.cs:33 | Moves the cursor inside the buffer. Outside the buffer it fails with an out-of-range error and changes nothing. |
| Console.Terminal.WriteBlock | OmniGui.Console/ConsoleAdapter.cs:34 | Writes one block at the cursor in the current colour. |
| Console.ConsoleAdapter.DrawRectangle | OmniGui.Console/ConsoleAdapter.cs:5-26 | A transparent fill or an empty rectangle changes nothing, not even the colour. Otherwise the log gains the colour, set once and first, followed by a block for each cell of `Drawn`, in order. The cursor ends on the last cell drawn. |
| Console.ConsoleAdapter.Paint | OmniGui.Console/ConsoleAdapter.cs:14-21 | Succeeds exactly when every cell of the raster is inside the buffer. Otherwise it fails out of range. Either way it draws `Drawn`: the raster up to its first cell outside the buffer. |
| Console.ConsoleAdapter.Plot | OmniGui.Console/ConsoleAdapter.cs:28-35 | Writes a block at the truncated coordinates when they are inside the buffer. Otherwise it fails and writes nothing. |
| Console.ConsoleAdapter.DrawRoundedRectangle | OmniGui.Console/ConsoleAdapter.cs:37-40 | Always fails as not implemented. |
| Console.ConsoleAdapter.DrawStrokedRectangle | OmniGui.Console/ConsoleAdapter.cs:42-45 | Always fails as not implemented. |
| Console.ConsoleAdapter.DrawText | OmniGui.Console/ConsoleAdapter.cs:47-50 | Always fails as not implemented. |
| Console.ConsoleAdapter.DrawFormattedText | OmniGui.Console/ConsoleAdapter.cs:52-55 | Always fails as not implemented. |
| Console.RowCellsAt | OmniGui.Console/ConsoleAdapter.cs:17-20 | A row has one cell per inner iteration: column `col` is `((int)(X + col), (int)(Y + row))`. |
| Console.RowsLength | OmniGui.Console/ConsoleAdapter.cs:15-21 | The first n rows hold n × columns cells. |
| Console.RowMajor | OmniGui.Console/ConsoleAdapter.cs:15-21 | The raster holds lines × columns cells. The cell of row `row` and column `col` sits at index `row × columns + col`. |
| Console.RasterSplit | OmniGui.Console/ConsoleAdapter.cs:15-21 | The cells before (row, col) are the earlier rows, then the earlier cells of that row. |
| Console.StopsAtFirstOutside | OmniGui.Console/ConsoleAdapter.cs:19-25 | When plotting (row, col) throws, what was drawn is exactly `Drawn`, and the raster is not entirely inside the buffer. |
| Console.DegenerateRasterIsEmpty | OmniGui.Console/ConsoleAdapter.cs:15-17 | A rectangle with no width or no height visits no cell. |
| Console.NothingDrawn | OmniGui.Console/ConsoleAdapter.cs:15-21 | Such a rectangle draws no block, even when it is not empty. |
| Console.DrawnWholeIffInside | OmniGui.Console/ConsoleAdapter.cs:12-25 | `Drawn` is a prefix of the raster. It is the whole raster exactly when every cell is inside the buffer. Otherwise it stops short, just before a cell outside. |
| Console.FillLog | OmniGui.Console/ConsoleAdapter.cs:14-20 | In what a visible fill appends to the log, the colour is set exactly once, as the first entry. Every later entry is a block in that colour, lying inside the buffer; the i-th block is the i-th cell of the raster. |
| Console.WholeRowCells | OmniGui.Console/ConsoleAdapter.cs:17-20 | With whole-number coordinates, row `row` is the cells (x0 + col, y0 + row) for col < w. |
| Console.WholeRows | OmniGui.Console/ConsoleAdapter.cs:15-21 | With whole-number coordinates, the first n rows are exactly the cells of those rows, each once. |
| Console.WholeRaster | OmniGui.Console/ConsoleAdapter.cs:15-21 | With whole-number origin and size, exactly w × h cells are plotted with no duplicates, and they are exactly the cells of the rectangle. |
| Console.TruncationMergesAtZero | OmniGui.Console/ConsoleAdapter.cs:30-31 | Truncation toward zero sends -0.5 and 0.5 to the same column, so a rectangle two wide starting at -0.5 plots column 0 twice. |

## Left out

- `OmniGui.Wpf/OmniGuiControl.cs` and `OmniGui.iOS/OmniGuiView.cs` are platform hosts: event wiring, native drawing and content loading. `OmniGui.Xaml/OmniGuiXamlLoader.cs` only plugs the builder into the XAML library. None of them is modelled.
- `OmniGui/Layouts/Grid/RowDefinitions.cs` only maps over a length parser. That parser is not part of this model.
- The reactive and reflection machinery is abstracted as `World` (observables, `FromEventPattern`, `StartWith`, `GetRuntimeProperty`, `INotifyPropertyChanged`).
  - Members are a string-keyed map.
  - PropertyChanged is an event carrying the model's members after the change.
  - Every `GetChangedObservable` (the data-context observable and the target property's in `SubscribeSourceToTarget`) is assumed to report changes only, so subscribing writes nothing. The current value is pushed explicitly where the code adds `StartWith`.
  - The reactive library detaches a subscription whose handler throws, and it is modelled that way (`ContextStep` and `ObserveStep` dispose their own subscription on failure; `Replay` and `ObserveReplay` stop there). That the exception then propagates out of the data-context setter is shown only as the `Fail` outcome.
- Of the exceptions raised later, inside the handlers of value subscriptions, only the missing-member exception is modelled, as a `Fault` reaction of `React`. A failing `PropertyInfo.SetValue` in the source-follows-target handler (a read-only member, a value of the wrong type) is not modelled: the model writes the value back whenever the member exists. Running events against the runtime is not modelled, so the detaching of a value subscription whose handler throws is not modelled either.
- Bind declarations are compared by an identity `key` field, which stands for `BindDefinition`'s equality.
- The casts `(Layout) TargetInstance` and the target-property lookups `GetProperty(bd.TargetMember.MemberName)` are assumed to succeed.
- The build context's bag is assumed to hold only a layout or null under `TemplatedParent`, so the `(Layout)` cast of the bag entry (which would throw for any other object, whatever the flags) cannot fail. The bag is assumed to be a dictionary that throws on a missing key, which the model reports as `MissingBagEntry`.
- A templated parent with no property of the requested name is assumed to fail with `MissingMember`.
- `BindTargetToSource` (OmniGuiXamlBuilder.cs:112-120) is never called (its only call is commented out), so it is not modelled. The unused `child` field of `Border` is not modelled either.
- The property engine and the `Layout` base class are not part of this model.
  - `ChildLayout` stands in for a child: `Measure` sets the desired size from the child's own measure policy.
  - `base.Render` is recorded as one `BaseRender` call carrying the children.
  - `Background`, `BorderBrush` and `VisualBounds` are plain fields.
  - A Border nested inside another Border is not modelled.
- The geometry types are not part of this model, and their behaviour is assumed:
  - `Inflate` adds the horizontal and vertical thickness.
  - `Deflate` subtracts it and clamps at zero.
  - `Rect.Deflate` moves the origin by the left and top sides.
  - `Rect.IsEmpty` means zero width and zero height.
  - `Color.Transparent` is a fixed colour whose channel values are assumed.
- Floating point: `double` is modelled as `real`. The `(int)` cast is truncation toward zero with no overflow. Loop counters add exactly, so rounding of large coordinates is not modelled.
- `ClosestConsoleColor` is a parameter of the adapter (`closestConsoleColor`), not a definition.
- Console I/O is reduced to a log.
  - Only `SetCursorPosition`'s out-of-range failure is modelled.
  - Setting the colour is assumed never to throw.
  - The cursor advance after writing a block is not modelled.
- `FormattedText` keeps only its text, since the text primitives only throw.

=== FILE: binding_lemmas.dfy ===
/** Properties of the binding model: dispose-before-subscribe, at most one
    value subscription per data-context subscription with one direction flag,
    the leak when both flags are set, and the leak of observe bindings. */
module BindingLemmas {
  import opened Wrappers
  import opened BindingModel

  // ---------------------------------------------------------------------
  // Helpers about the runtime primitives

  lemma OwnedSameLive(w1: World, w2: World, watch: SubId)
    requires w1.live == w2.live
    ensures Owned(w1, watch) == Owned(w2, watch)
  {
  }

  lemma OwnedAfterRelease(w: World, id: SubId, watch: SubId)
    ensures Owned(WithRelease(w, id), watch) == Owned(w, watch) - {id}
  {
  }

  lemma OwnedAfterReleaseOpt(w: World, o: Option<SubId>, watch: SubId)
    ensures Owned(WithReleaseOpt(w, o), watch) == Owned(w, watch) - OptSet(o)
  {
    if o.Some? { OwnedAfterRelease(w, o.value, watch); }
  }

  lemma OwnedAfterSubscription(w: World, k: SubKind, watch: SubId)
    requires WorldValid(w)
    ensures w.nextId !in w.live
    ensures Owned(WithSubscription(w, k).0, watch) == Owned(w, watch) + (if k.OwnedBy(watch) then {w.nextId} else {})
  {
  }

  lemma SubscriptionKeepsValid(w: World, k: SubKind)
    requires WorldValid(w)
    requires k.ValueKind() ==> k.owner < w.nextId
    ensures WorldValid(WithSubscription(w, k).0)
  {
  }

  /** A data-context subscription just created owns nothing. */
  lemma FreshWatchOwnsNothing(w: World, k: SubKind)
    requires WorldValid(w) && !k.ValueKind()
    ensures WorldValid(WithSubscription(w, k).0)
    ensures Owned(WithSubscription(w, k).0, w.nextId) == {}
  {
  }

  lemma ReleaseKeepsValid(w: World, o: Option<SubId>)
    requires WorldValid(w)
    ensures WorldValid(WithReleaseOpt(w, o))
    ensures WithReleaseOpt(w, o).nextId == w.nextId
  {
  }

  /** A subset of a set with at most one element has at most one element. */
  lemma AtMostOne<T>(xs: set<T>, o: Option<T>)
    requires xs <= OptSet(o)
    ensures |xs| <= 1
  {
    if o.Some? && o.value in xs {
      assert xs == {o.value};
    } else {
      assert xs == {};
    }
  }

  // ---------------------------------------------------------------------
  // One data-context event

  /** Every handler run keeps the runtime consistent and never reuses ids. */
  lemma StepKeepsValid(bd: BindDecl, watch: SubId, s: DcState, ctx: Option<ModelObject>)
    requires WorldValid(s.world) && watch < s.world.nextId
    ensures var r := ContextStep(bd, watch, s, ctx).state.world;
      WorldValid(r) && s.world.nextId <= r.nextId
  {
    if ctx.Some? {
      var m := ctx.value;
      var w1 := WithReleaseOpt(s.world, s.valueSubs);
      assert WorldValid(w1);
      var f := FollowSource(w1, watch, bd, m);
      if bd.targetFollowsSource && f.Failure? {
        ReleaseKeepsValid(w1, Some(watch));
      }
      if bd.targetFollowsSource && f.Success? {
        var pushed := WithTargetSet(w1, bd.target, bd.targetMember, m.members[bd.sourceMember]);
        SubscriptionKeepsValid(pushed, TargetFollows(watch, bd, m.id));
      }
      if !(bd.targetFollowsSource && f.Failure?) && bd.sourceFollowsTarget {
        var w2 := if bd.targetFollowsSource then f.value.0 else w1;
        SubscriptionKeepsValid(w2, SourceFollows(watch, bd, m));
      }
    }
  }

  /** A null data context changes nothing. */
  lemma NullContextIgnored(bd: BindDecl, watch: SubId, s: DcState)
    ensures ContextStep(bd, watch, s, None) == StepResult(s, Pass)
  {
  }

  /** On a non-null context the handler only adds to the trace. It disposes
      at most two subscriptions: the recorded value subscription, before
      everything else it does, and, when it throws, its own data-context
      subscription, after everything else. The first disposal happens
      exactly when the recorded subscription is live. */
  lemma DisposeBeforeSubscribe(bd: BindDecl, watch: SubId, s: DcState, m: ModelObject)
    ensures var r := ContextStep(bd, watch, s, Some(m));
      s.world.trace <= r.state.world.trace &&
      var added := r.state.world.trace[|s.world.trace|..];
      (forall i | 0 <= i < |added| && added[i].Disposed? ::
        (i == 0 && s.valueSubs == Some(added[i].id)) ||
        (i == |added| - 1 && added[i].id == watch && r.outcome.Fail?)) &&
      ((s.valueSubs.Some? && s.valueSubs.value in s.world.live) <==>
        (s.valueSubs.Some? && |added| > 0 && added[0] == Disposed(s.valueSubs.value)))
  {
    var w0 := s.world;
    var w1 := WithReleaseOpt(w0, s.valueSubs);
    var d: seq<Effect> := if s.valueSubs.Some? && s.valueSubs.value in w0.live then [Disposed(s.valueSubs.value)] else [];
    assert w1.trace == w0.trace + d;
    var tail, detach := HandlerTail(bd, watch, s, m);
    DisposalsAtEnds(w0.trace, d, tail, detach);
    if d == [] && s.valueSubs.Some? && s.valueSubs.value == watch {
      assert w1 == w0;
    }
  }

  /** A trace extended by at most one disposal, then by effects that are not
      disposals, then by at most one more effect, has its new disposals only
      at the two ends. */
  lemma DisposalsAtEnds(before: seq<Effect>, d: seq<Effect>, tail: seq<Effect>, e: seq<Effect>)
    requires |d| <= 1 && |e| <= 1
    requires forall x | x in tail :: !x.Disposed?
    ensures before <= before + d + tail + e
    ensures (before + d + tail + e)[|before|..] == d + tail + e
    ensures forall i | 0 <= i < |d + tail + e| && (d + tail + e)[i].Disposed? ::
      (i == 0 && d == [(d + tail + e)[i]]) || (i == |d + tail + e| - 1 && e == [(d + tail + e)[i]])
    ensures d != [] ==> (d + tail + e)[0] == d[0]
    ensures d == [] && tail != [] ==> !(d + tail + e)[0].Disposed?
    ensures d == [] && tail == [] ==> d + tail + e == e
  {
    var added := d + tail + e;
    assert (before + d + tail + e)[|before|..] == added;
    forall j | |d| <= j < |d + tail|
      ensures !added[j].Disposed?
    {
      assert added[j] == tail[j - |d|];
    }
  }

  /** What the handler appends after its first disposal: effects that are
      not disposals, then, when it throws, the disposal of its own
      subscription. */
  lemma HandlerTail(bd: BindDecl, watch: SubId, s: DcState, m: ModelObject) returns (tail: seq<Effect>, detach: seq<Effect>)
    ensures forall e | e in tail :: !e.Disposed?
    ensures detach == [] ||
      (detach == [Disposed(watch)] && watch in WithReleaseOpt(s.world, s.valueSubs).live &&
       ContextStep(bd, watch, s, Some(m)).outcome.Fail? && tail == [])
    ensures ContextStep(bd, watch, s, Some(m)).state.world.trace == WithReleaseOpt(s.world, s.valueSubs).trace + tail + detach
  {
    var w1 := WithReleaseOpt(s.world, s.valueSubs);
    var f := FollowSource(w1, watch, bd, m);
    if bd.targetFollowsSource && f.Failure? {
      tail := [];
      detach := if watch in w1.live then [Disposed(watch)] else [];
    } else {
      var t1: seq<Effect> := if bd.targetFollowsSource then f.value.0.trace[|w1.trace|..] else [];
      var w2 := if bd.targetFollowsSource then f.value.0 else w1;
      assert w2.trace == w1.trace + t1;
      var t2: seq<Effect> := if bd.sourceFollowsTarget then [Subscribed(w2.nextId, SourceFollows(watch, bd, m))] else [];
      tail := t1 + t2;
      detach := [];
    }
  }

  /** The handler stays subscribed exactly when it does not throw: an
      exception detaches its data-context subscription. */
  lemma FailureDetaches(bd: BindDecl, watch: SubId, s: DcState, ctx: Option<ModelObject>)
    requires watch in s.world.live && s.valueSubs != Some(watch)
    ensures var r := ContextStep(bd, watch, s, ctx);
      (watch in r.state.world.live <==> r.outcome == Pass) &&
      (r.outcome.Fail? <==> ctx.Some? && bd.targetFollowsSource && !(bd.sourceMember in ctx.value.members && ctx.value.notifies))
  {
  }

  /** One data context the handler cannot follow ends the binding for good:
      its data-context subscription is disposed, the value subscriptions it
      owned lose the recorded one, and no later context subscribes anything. */
  lemma BadContextEndsBinding(bd: BindDecl, watch: SubId, s: DcState, m: ModelObject, rest: seq<Option<ModelObject>>)
    requires bd.targetFollowsSource && !(bd.sourceMember in m.members && m.notifies)
    requires WorldValid(s.world) && watch in s.world.live && s.valueSubs != Some(watch)
    ensures var r := Replay(bd, watch, s, [Some(m)] + rest);
      watch !in r.world.live &&
      r.world.nextId == s.world.nextId &&
      Owned(r.world, watch) == Owned(s.world, watch) - OptSet(s.valueSubs)
  {
    var w1 := WithReleaseOpt(s.world, s.valueSubs);
    OwnedAfterReleaseOpt(s.world, s.valueSubs, watch);
    OwnedAfterRelease(w1, watch, watch);
    assert watch !in Owned(w1, watch);
    assert ([Some(m)] + rest)[0] == Some(m);
  }

  /** With target-follows-source alone, the handler pushes the member's
      current value into the target, then subscribes to the model's changes,
      and records that subscription. */
  lemma TargetFollowsPushesCurrentFirst(bd: BindDecl, watch: SubId, s: DcState, m: ModelObject)
    requires bd.targetFollowsSource && !bd.sourceFollowsTarget
    requires bd.sourceMember in m.members && m.notifies
    ensures var r := ContextStep(bd, watch, s, Some(m));
      var w1 := WithReleaseOpt(s.world, s.valueSubs);
      r.outcome == Pass &&
      r.state.valueSubs == Some(w1.nextId) &&
      r.state.world.trace == w1.trace + [TargetSet(bd.target, bd.targetMember, m.members[bd.sourceMember]),
                                         Subscribed(w1.nextId, TargetFollows(watch, bd, m.id))]
  {
  }

  /** With a single direction flag, if at most the recorded value
      subscription is live before a data-context event, the same holds after. */
  lemma SingleFlagStep(bd: BindDecl, watch: SubId, s: DcState, ctx: Option<ModelObject>)
    requires bd.targetFollowsSource != bd.sourceFollowsTarget
    requires WorldValid(s.world) && watch < s.world.nextId
    requires Owned(s.world, watch) <= OptSet(s.valueSubs)
    ensures var r := ContextStep(bd, watch, s, ctx).state;
      Owned(r.world, watch) <= OptSet(r.valueSubs)
  {
    if ctx.Some? {
      var m := ctx.value;
      var w1 := WithReleaseOpt(s.world, s.valueSubs);
      OwnedAfterReleaseOpt(s.world, s.valueSubs, watch);
      assert Owned(w1, watch) == {};
      if bd.targetFollowsSource {
        if bd.sourceMember in m.members && m.notifies {
          var pushed := WithTargetSet(w1, bd.target, bd.targetMember, m.members[bd.sourceMember]);
          OwnedSameLive(pushed, w1, watch);
          OwnedAfterSubscription(pushed, TargetFollows(watch, bd, m.id), watch);
        } else {
          OwnedAfterRelease(w1, watch, watch);
        }
      } else {
        OwnedAfterSubscription(w1, SourceFollows(watch, bd, m), watch);
      }
    }
  }

  /** With a single direction flag, whatever sequence of data contexts
      arrives, at most one value subscription of this data-context
      subscription is live, and it is the recorded one. */
  lemma {:induction false} SingleFlagOwnsAtMostOne(bd: BindDecl, watch: SubId, s: DcState, ctxs: seq<Option<ModelObject>>)
    requires bd.targetFollowsSource != bd.sourceFollowsTarget
    requires WorldValid(s.world) && watch < s.world.nextId
    requires Owned(s.world, watch) <= OptSet(s.valueSubs)
    ensures var r := Replay(bd, watch, s, ctxs);
      Owned(r.world, watch) <= OptSet(r.valueSubs) && |Owned(r.world, watch)| <= 1
    decreases |ctxs|
  {
    if ctxs == [] {
      AtMostOne(Owned(s.world, watch), s.valueSubs);
    } else {
      var r := ContextStep(bd, watch, s, ctxs[0]);
      SingleFlagStep(bd, watch, s, ctxs[0]);
      StepKeepsValid(bd, watch, s, ctxs[0]);
      if r.outcome.Fail? {
        AtMostOne(Owned(r.state.world, watch), r.state.valueSubs);
      } else {
        SingleFlagOwnsAtMostOne(bd, watch, r.state, ctxs[1..]);
      }
    }
  }

  // ---------------------------------------------------------------------
  // Both direction flags

  ghost predicate Usable(bd: BindDecl, m: ModelObject)
  {
    bd.sourceMember in m.members && m.notifies
  }

  /** With both flags, a successful event creates two value subscriptions,
      target-follows-source (id t) then source-follows-target (id t + 1); only
      t + 1 is recorded, and t stays live without being recorded. */
  lemma BothFlagsLeak(bd: BindDecl, watch: SubId, s: DcState, m: ModelObject)
    requires bd.targetFollowsSource && bd.sourceFollowsTarget
    requires WorldValid(s.world) && watch < s.world.nextId && Usable(bd, m)
    ensures var r := ContextStep(bd, watch, s, Some(m));
      var t := s.world.nextId;
      r.outcome == Pass &&
      r.state.valueSubs == Some(t + 1) &&
      r.state.world.live[t] == TargetFollows(watch, bd, m.id) &&
      Owned(r.state.world, watch) == Owned(s.world, watch) - OptSet(s.valueSubs) + {t, t + 1}
  {
    var w1 := WithReleaseOpt(s.world, s.valueSubs);
    OwnedAfterReleaseOpt(s.world, s.valueSubs, watch);
    var pushed := WithTargetSet(w1, bd.target, bd.targetMember, m.members[bd.sourceMember]);
    OwnedSameLive(pushed, w1, watch);
    OwnedAfterSubscription(pushed, TargetFollows(watch, bd, m.id), watch);
    var w2 := WithSubscription(pushed, TargetFollows(watch, bd, m.id)).0;
    SubscriptionKeepsValid(pushed, TargetFollows(watch, bd, m.id));
    OwnedAfterSubscription(w2, SourceFollows(watch, bd, m), watch);
  }

  lemma {:induction false} BothFlagsLeakGrows(bd: BindDecl, watch: SubId, s: DcState, ctxs: seq<Option<ModelObject>>)
    requires bd.targetFollowsSource && bd.sourceFollowsTarget
    requires WorldValid(s.world) && watch < s.world.nextId
    requires s.valueSubs.Some? && s.valueSubs.value in Owned(s.world, watch)
    requires forall i | 0 <= i < |ctxs| :: ctxs[i].Some? && Usable(bd, ctxs[i].value)
    ensures |Owned(Replay(bd, watch, s, ctxs).world, watch)| == |Owned(s.world, watch)| + |ctxs|
    decreases |ctxs|
  {
    if ctxs != [] {
      var m := ctxs[0].value;
      var t := s.world.nextId;
      var s' := ContextStep(bd, watch, s, ctxs[0]).state;
      BothFlagsLeak(bd, watch, s, m);
      StepKeepsValid(bd, watch, s, ctxs[0]);
      var o := Owned(s.world, watch);
      var v := s.valueSubs.value;
      assert t !in o && t + 1 !in o;
      assert o - {v} + {t, t + 1} == (o - {v}) + {t} + {t + 1};
      assert |o - {v}| == |o| - 1 by { assert (o - {v}) + {v} == o; }
      assert |Owned(s'.world, watch)| == |o| + 1;
      BothFlagsLeakGrows(bd, watch, s', ctxs[1..]);
    }
  }

  /** With both flags, n usable data contexts leave n + 1 value subscriptions
      live, although the subscription records only the last one. */
  lemma {:induction false} BothFlagsLeakAccumulates(bd: BindDecl, watch: SubId, w: World, ctxs: seq<Option<ModelObject>>)
    requires bd.targetFollowsSource && bd.sourceFollowsTarget
    requires WorldValid(w) && watch < w.nextId && Owned(w, watch) == {}
    requires |ctxs| > 0
    requires forall i | 0 <= i < |ctxs| :: ctxs[i].Some? && Usable(bd, ctxs[i].value)
    ensures |Owned(Replay(bd, watch, DcState(w, None), ctxs).world, watch)| == |ctxs| + 1
  {
    var s := DcState(w, None);
    var s' := ContextStep(bd, watch, s, ctxs[0]).state;
    BothFlagsLeak(bd, watch, s, ctxs[0].value);
    StepKeepsValid(bd, watch, s, ctxs[0]);
    assert Owned(s'.world, watch) == {w.nextId, w.nextId + 1};
    assert |Owned(s'.world, watch)| == 2;
    BothFlagsLeakGrows(bd, watch, s', ctxs[1..]);
  }

  // ---------------------------------------------------------------------
  // Dispose

  /** Dispose releases the data-context subscription and the recorded value
      subscription, and no other subscription owned by it. */
  lemma DisposeReleasesRecorded(s: DcState, watch: SubId)
    requires WorldValid(s.world)
    ensures watch !in DisposeDc(s, watch).live
    ensures Owned(DisposeDc(s, watch), watch) == Owned(s.world, watch) - OptSet(s.valueSubs)
  {
    var w1 := WithReleaseOpt(s.world, s.valueSubs);
    OwnedAfterReleaseOpt(s.world, s.valueSubs, watch);
    OwnedAfterRelease(w1, watch, watch);
    assert watch !in Owned(w1, watch);
  }

  /** With a single flag and the invariant of SingleFlagOwnsAtMostOne,
      Dispose leaves nothing of this binding live. */
  lemma SingleFlagDisposeReleasesAll(s: DcState, watch: SubId)
    requires WorldValid(s.world)
    requires Owned(s.world, watch) <= OptSet(s.valueSubs)
    ensures Owned(DisposeDc(s, watch), watch) == {}
  {
    DisposeReleasesRecorded(s, watch);
  }

  /** With both flags, the target-follows-source subscription created by a
      usable context is still live after Dispose. */
  lemma LeakSurvivesDispose(bd: BindDecl, watch: SubId, s: DcState, m: ModelObject)
    requires bd.targetFollowsSource && bd.sourceFollowsTarget
    requires WorldValid(s.world) && watch < s.world.nextId && Usable(bd, m)
    ensures var r := ContextStep(bd, watch, s, Some(m)).state;
      s.world.nextId in Owned(DisposeDc(r, watch), watch)
  {
    var r := ContextStep(bd, watch, s, Some(m)).state;
    BothFlagsLeak(bd, watch, s, m);
    StepKeepsValid(bd, watch, s, Some(m));
    DisposeReleasesRecorded(r, watch);
  }

  // ---------------------------------------------------------------------
  // Deliveries

  /** Target-follows-source reacts exactly to PropertyChanged of its own model
      for its source member, and writes the member's current value. */
  lemma TargetFollowsReaction(owner: SubId, bd: BindDecl, mid: ModelId, ev: Event)
    ensures React(TargetFollows(owner, bd, mid), ev).Some? <==>
      (ev.ModelChanged? && ev.source.id == mid && ev.name == bd.sourceMember)
    ensures ev.ModelChanged? && ev.source.id == mid && ev.name == bd.sourceMember && ev.name in ev.source.members ==>
      React(TargetFollows(owner, bd, mid), ev) == Some(WriteTarget(bd.target, bd.targetMember, ev.source.members[ev.name]))
    ensures ev.ModelChanged? && ev.source.id == mid && ev.name == bd.sourceMember && ev.name !in ev.source.members ==>
      React(TargetFollows(owner, bd, mid), ev) == Some(Fault(MissingMember(ev.name)))
  {
  }

  /** Source-follows-target writes every change of the target property back
      to the model member, and faults on every change when the model lacks
      the member (subscribing succeeded all the same). */
  lemma SourceFollowsReaction(owner: SubId, bd: BindDecl, m: ModelObject, ev: Event)
    ensures React(SourceFollows(owner, bd, m), ev).Some? <==>
      (ev.TargetChanged? && ev.node == bd.target && ev.member == bd.targetMember)
    ensures ev.TargetChanged? && ev.node == bd.target && ev.member == bd.targetMember && bd.sourceMember in m.members ==>
      React(SourceFollows(owner, bd, m), ev) == Some(WriteModel(m.id, bd.sourceMember, ev.value))
    ensures ev.TargetChanged? && ev.node == bd.target && ev.member == bd.targetMember && bd.sourceMember !in m.members ==>
      React(SourceFollows(owner, bd, m), ev) == Some(Fault(MissingMember(bd.sourceMember)))
  {
  }

  /** A templated-parent subscription writes every change of the parent's
      source property into the target property, and an observe forwarding
      writes every value its stream emits; neither reacts to anything else
      and neither can fault. */
  lemma ParentAndForwardReactions(bd: BindDecl, p: NodeId, od: ObserveDecl, sid: StreamId, ev: Event)
    ensures React(ParentFeed(bd, p), ev).Some? <==>
      (ev.ParentChanged? && ev.node == p && ev.member == bd.sourceMember)
    ensures React(ParentFeed(bd, p), ev).Some? ==>
      React(ParentFeed(bd, p), ev) == Some(WriteTarget(bd.target, bd.targetMember, ev.value))
    ensures React(Forward(od, sid), ev).Some? <==> (ev.StreamEmitted? && ev.stream == sid)
    ensures React(Forward(od, sid), ev).Some? ==>
      React(Forward(od, sid), ev) == Some(WriteTarget(od.target, od.targetMember, ev.value))
  {
  }

  /** Under the single-flag invariant, any event reaches at most one of this
      binding's value subscriptions: no duplicate delivery. */
  lemma SingleFlagDeliversAtMostOnce(w: World, watch: SubId, recorded: Option<SubId>, ev: Event)
    requires Owned(w, watch) <= OptSet(recorded)
    ensures |Deliveries(w, ev) * Owned(w, watch)| <= 1
  {
    AtMostOne(Deliveries(w, ev) * Owned(w, watch), recorded);
  }

  /** With target-follows-source alone, once a new model is the context,
      PropertyChanged events of any other model reach none of this binding's
      subscriptions. */
  lemma SingleFlagForgetsOldContext(bd: BindDecl, watch: SubId, s: DcState, m: ModelObject, ev: Event)
    requires bd.targetFollowsSource && !bd.sourceFollowsTarget
    requires WorldValid(s.world) && watch < s.world.nextId
    requires Owned(s.world, watch) <= OptSet(s.valueSubs)
    requires Usable(bd, m)
    requires ev.ModelChanged? && ev.source.id != m.id
    ensures var r := ContextStep(bd, watch, s, Some(m)).state;
      Deliveries(r.world, ev) * Owned(r.world, watch) == {}
  {
    var r := ContextStep(bd, watch, s, Some(m)).state;
    SingleFlagStep(bd, watch, s, Some(m));
    var t := WithReleaseOpt(s.world, s.valueSubs).nextId;
    assert r.valueSubs == Some(t) && r.world.live[t] == TargetFollows(watch, bd, m.id);
    assert t !in Deliveries(r.world, ev);
  }

  /** With both flags, after the context moved from m1 to m2, a
      PropertyChanged event of m1 is still pushed into the target by the
      leaked subscription. */
  lemma StaleContextStillPushes(bd: BindDecl, watch: SubId, w: World, m1: ModelObject, m2: ModelObject, later: ModelObject)
    requires bd.targetFollowsSource && bd.sourceFollowsTarget
    requires WorldValid(w) && watch < w.nextId
    requires Usable(bd, m1) && Usable(bd, m2)
    requires later.id == m1.id && bd.sourceMember in later.members
    ensures var r := Replay(bd, watch, DcState(w, None), [Some(m1), Some(m2)]);
      w.nextId in Owned(r.world, watch) && w.nextId in Deliveries(r.world, ModelChanged(later, bd.sourceMember)) &&
      React(r.world.live[w.nextId], ModelChanged(later, bd.sourceMember)) ==
        Some(WriteTarget(bd.target, bd.targetMember, later.members[bd.sourceMember]))
  {
    var s0 := DcState(w, None);
    var s1 := ContextStep(bd, watch, s0, Some(m1)).state;
    BothFlagsLeak(bd, watch, s0, m1);
    StepKeepsValid(bd, watch, s0, Some(m1));
    var s2 := ContextStep(bd, watch, s1, Some(m2)).state;
    BothFlagsLeak(bd, watch, s1, m2);
    assert Replay(bd, watch, s1, [Some(m2)]) == Replay(bd, watch, s2, []);
    assert Replay(bd, watch, s0, [Some(m1), Some(m2)]) == Replay(bd, watch, s1, [Some(m2)]);
  }

  // ---------------------------------------------------------------------
  // Observe bindings

  /** Whether the observe handler throws on data context `c`. */
  predicate Faulty(od: ObserveDecl, c: Option<ModelObject>)
  {
    c.Some? && !(od.observableName in c.value.members && c.value.members[od.observableName].Stream?)
  }

  /** The number of non-null contexts delivered before the first one the
      handler throws on. */
  function StreamContexts(od: ObserveDecl, ctxs: seq<Option<ModelObject>>): nat
  {
    if ctxs == [] || Faulty(od, ctxs[0]) then 0
    else (if ctxs[0].Some? then 1 else 0) + StreamContexts(od, ctxs[1..])
  }

  /** Observe bindings never dispose a forwarding subscription, nor anything
      else but their own data-context subscription: every other subscription
      live before a sequence of contexts is live after it, each context whose
      member holds an observable adds one more forwarding subscription, and
      the handler stays subscribed exactly when no context made it throw. */
  lemma {:induction false} ObserveForwardsNeverReleased(w: World, od: ObserveDecl, watch: SubId, ctxs: seq<Option<ModelObject>>)
    requires WorldValid(w) && watch in w.live && w.live[watch] == WatchObserve(od)
    ensures var r := ObserveReplay(w, od, watch, ctxs);
      WorldValid(r) && w.live.Keys - {watch} <= r.live.Keys &&
      |Forwards(r, od)| == |Forwards(w, od)| + StreamContexts(od, ctxs) &&
      (watch in r.live <==> forall i | 0 <= i < |ctxs| :: !Faulty(od, ctxs[i]))
    decreases |ctxs|
  {
    if ctxs != [] {
      var c := ctxs[0];
      if Faulty(od, c) {
        assert ObserveStep(w, od, watch, c).0 == WithRelease(w, watch);
        assert Forwards(WithRelease(w, watch), od) == Forwards(w, od);
      } else {
        var w' := ObserveStep(w, od, watch, c).0;
        if c.Some? {
          var k := Forward(od, c.value.members[od.observableName].stream);
          SubscriptionKeepsValid(w, k);
          assert w.nextId !in w.live;
          assert Forwards(w', od) == Forwards(w, od) + {w.nextId};
        } else {
          assert w' == w;
        }
        ObserveForwardsNeverReleased(w', od, watch, ctxs[1..]);
        assert (forall i | 0 <= i < |ctxs| :: !Faulty(od, ctxs[i])) <==>
               (forall i | 0 <= i < |ctxs[1..]| :: !Faulty(od, ctxs[1..][i])) by {
          forall i | 0 <= i < |ctxs[1..]|
            ensures ctxs[1..][i] == ctxs[i + 1]
          {
          }
        }
      }
    }
  }

  // ---------------------------------------------------------------------
  // Templated-parent bindings

  /** The templated-parent path subscribes only when the target follows the
      source: then it pushes the parent's current value and adds one parent
      subscription; otherwise it leaves the runtime unchanged. It never
      disposes anything. */
  lemma TemplatedParentSubscribesOnlyWhenFollowing(w: World, bd: BindDecl, ctx: BuildContext)
    ensures var r := ParentStep(w, bd, ctx);
      (r.Success? && !bd.targetFollowsSource ==> r.value == w) &&
      (r.Success? && bd.targetFollowsSource ==>
        var p := ctx.bag[TemplatedParentKey].value;
        r.value.live == w.live[w.nextId := ParentFeed(bd, p.id)] &&
        r.value.trace == w.trace + [TargetSet(bd.target, bd.targetMember, p.properties[bd.sourceMember]),
                                    Subscribed(w.nextId, ParentFeed(bd, p.id))]) &&
      (r.Failure? <==> TemplatedParentKey !in ctx.bag ||
                       (bd.targetFollowsSource && (ctx.bag[TemplatedParentKey].None? ||
                        bd.sourceMember !in ctx.bag[TemplatedParentKey].value.properties)))
  {
  }

  // ---------------------------------------------------------------------
  // Rebinding a declaration in the builder

  /** Re-processing a declaration whose previous handle was a data-context
      subscription first disposes that subscription's parts, and only then
      subscribes anew: the effects appended are disposals followed by effects
      that dispose nothing. */
  lemma RebindDisposesFirst(s: DcState, watch: SubId, bd: BindDecl, ctx: BuildContext)
    requires AttachWorld(DisposeDc(s, watch), bd, ctx).Success?
    ensures var cleared := DisposeDc(s, watch);
      var r := AttachWorld(cleared, bd, ctx).value;
      s.world.trace <= cleared.trace <= r.trace &&
      (forall e | e in cleared.trace[|s.world.trace|..] :: e.Disposed?) &&
      (forall e | e in r.trace[|cleared.trace|..] :: !e.Disposed?)
  {
    var d := DisposeAppendsDisposals(s, watch);
    var cleared := DisposeDc(s, watch);
    assert cleared.trace[|s.world.trace|..] == d;
    var tail := AttachAppendsNoDisposal(cleared, bd, ctx);
    var r := AttachWorld(cleared, bd, ctx).value;
    assert r.trace[|cleared.trace|..] == tail;
  }

  lemma DisposeAppendsDisposals(s: DcState, watch: SubId) returns (d: seq<Effect>)
    ensures DisposeDc(s, watch).trace == s.world.trace + d
    ensures forall e | e in d :: e.Disposed?
  {
    var w1 := WithReleaseOpt(s.world, s.valueSubs);
    var d1: seq<Effect> := if s.valueSubs.Some? && s.valueSubs.value in s.world.live then [Disposed(s.valueSubs.value)] else [];
    var d2: seq<Effect> := if watch in w1.live then [Disposed(watch)] else [];
    assert w1.trace == s.world.trace + d1;
    d := d1 + d2;
  }

  lemma AttachAppendsNoDisposal(w: World, bd: BindDecl, ctx: BuildContext) returns (tail: seq<Effect>)
    requires AttachWorld(w, bd, ctx).Success?
    ensures AttachWorld(w, bd, ctx).value.trace == w.trace + tail
    ensures forall e | e in tail :: !e.Disposed?
  {
    tail := AttachWorld(w, bd, ctx).value.trace[|w.trace|..];
  }
}

=== FILE: binding_model.dfy ===
/** The values the XAML builder's binding code works on, and its behaviour as
    pure state transitions.

    The reactive runtime (observables, subscriptions, PropertyChanged events)
    is abstracted as a `World`: the subscriptions that are currently live,
    each with the kind of forwarding it performs, the next subscription id,
    and a trace of every subscribe, dispose and property write in order. */
module BindingModel {
  import opened Wrappers

  type SubId = nat
  type NodeId = nat
  type ModelId = nat
  type StreamId = nat

  /** A value held by a layout property or a member of a model object. */
  datatype Value = Null | Scalar(text: string) | Stream(stream: StreamId)

  /** A data-context object: its identity, its public members by name (what
      reflective lookup finds, with their current values) and whether it
      implements INotifyPropertyChanged. */
  datatype ModelObject = ModelObject(id: ModelId, members: map<string, Value>, notifies: bool)

  /** A layout used as templated parent: identity and registered properties. */
  datatype ParentLayout = ParentLayout(id: NodeId, properties: map<string, Value>)

  datatype BindingSource = DataContext | TemplatedParent

  /** A bind declaration. `key` stands for the declaration's identity, so two
      declarations with equal fields but different identities are distinct. */
  datatype BindDecl = BindDecl(
    key: nat,
    target: NodeId,
    targetMember: string,
    source: BindingSource,
    sourceMember: string,
    targetFollowsSource: bool,
    sourceFollowsTarget: bool)

  /** An observe declaration: forward the observable member `observableName`
      of the data context into `targetMember` of `target`. */
  datatype ObserveDecl = ObserveDecl(key: nat, target: NodeId, targetMember: string, observableName: string)

  /** An assignment handed to the builder, with the results of the two `as`
      conversions of its value (`as ObserveDefinition`, `as BindDefinition`). */
  datatype Assignment = Assignment(
    target: NodeId,
    member: string,
    value: Value,
    asObserve: Option<ObserveDecl>,
    asBind: Option<BindDecl>)

  /** The build context's bag of named objects; the entry under
      `TemplatedParentKey` is a layout or null. */
  datatype BuildContext = BuildContext(bag: map<string, Option<ParentLayout>>)

  const TemplatedParentKey: string := "TemplatedParent"

  /** The exceptions the binding code can raise. */
  datatype BindError =
    | MissingMember(name: string)   // reflective lookup returned null
    | NotNotifying                  // cast to INotifyPropertyChanged failed
    | NotObservable(name: string)   // cast to IObservable<object> failed
    | NullObservable(name: string)  // the observable member held null
    | MissingBagEntry(key: string)  // dictionary lookup of the bag failed
    | NullTemplatedParent           // the bag held null for the templated parent
    | DuplicateKey                  // Dictionary.Add with a key already present

  /** What a live subscription does. Value subscriptions record as `owner`
      the data-context subscription whose handler created them. */
  datatype SubKind =
    | WatchBinding(bd: BindDecl)             // data-context changes of a bind target
    | WatchObserve(od: ObserveDecl)          // data-context changes of an observe target
    | TargetFollows(owner: SubId, bd: BindDecl, model: ModelId)
    | SourceFollows(owner: SubId, bd: BindDecl, context: ModelObject)
    | ParentFeed(bd: BindDecl, parent: NodeId)
    | Forward(od: ObserveDecl, stream: StreamId)
  {
    predicate ValueKind() { TargetFollows? || SourceFollows? }
    predicate OwnedBy(w: SubId) { ValueKind() && owner == w }
  }

  datatype Effect =
    | Subscribed(id: SubId, kind: SubKind)
    | Disposed(id: SubId)
    | TargetSet(node: NodeId, member: string, value: Value)
    | BaseAssigned(assignment: Assignment)

  datatype World = World(live: map<SubId, SubKind>, nextId: SubId, trace: seq<Effect>)

  /** Ids are handed out in increasing order, and a value subscription is
      younger than the data-context subscription that owns it. */
  ghost predicate WorldValid(w: World)
  {
    forall id | id in w.live :: id < w.nextId && (w.live[id].ValueKind() ==> w.live[id].owner < id)
  }

  /** The live value subscriptions created by the handler of `watch`. */
  function Owned(w: World, watch: SubId): set<SubId>
  {
    set id | id in w.live && w.live[id].OwnedBy(watch)
  }

  // ---------------------------------------------------------------------
  // Primitive runtime operations

  /** Subscribing: a fresh id becomes live with kind `k`. */
  function WithSubscription(w: World, k: SubKind): (World, SubId)
  {
    (World(w.live[w.nextId := k], w.nextId + 1, w.trace + [Subscribed(w.nextId, k)]), w.nextId)
  }

  /** Disposing: a live subscription stops; disposing twice does nothing. */
  function WithRelease(w: World, id: SubId): World
  {
    if id in w.live then World(w.live - {id}, w.nextId, w.trace + [Disposed(id)]) else w
  }

  /** `x?.Dispose()`. */
  function WithReleaseOpt(w: World, o: Option<SubId>): World
  {
    if o.Some? then WithRelease(w, o.value) else w
  }

  /** A property write on a layout through the property system. */
  function WithTargetSet(w: World, node: NodeId, member: string, v: Value): World
  {
    w.(trace := w.trace + [TargetSet(node, member, v)])
  }

  /** An ordinary assignment, performed by the base object builder. */
  function WithBaseAssigned(w: World, a: Assignment): World
  {
    w.(trace := w.trace + [BaseAssigned(a)])
  }

  // ---------------------------------------------------------------------
  // DataContextSubscription

  /** SubscribeTargetToSource: read the member's current value (fails when
      the member is missing), cast the model to INotifyPropertyChanged (fails
      when it does not notify), push the current value into the target, then
      listen to the model's PropertyChanged events. */
  function FollowSource(w: World, owner: SubId, bd: BindDecl, m: ModelObject): Result<(World, SubId), BindError>
  {
    if bd.sourceMember !in m.members then Failure(MissingMember(bd.sourceMember))
    else if !m.notifies then Failure(NotNotifying)
    else
      var pushed := WithTargetSet(w, bd.target, bd.targetMember, m.members[bd.sourceMember]);
      Success(WithSubscription(pushed, TargetFollows(owner, bd, m.id)))
  }

  /** SubscribeSourceToTarget: listen to the target property's changes. The
      member lookup happens per change, so subscribing itself cannot fail. */
  function FollowTarget(w: World, owner: SubId, bd: BindDecl, m: ModelObject): (World, SubId)
  {
    WithSubscription(w, SourceFollows(owner, bd, m))
  }

  /** The two fields of a DataContextSubscription that change over time: the
      runtime it acts on and `valueChangeSubs`. */
  datatype DcState = DcState(world: World, valueSubs: Option<SubId>)

  datatype StepResult = StepResult(state: DcState, outcome: Outcome<BindError>)

  /** The handler the data-context subscription of `bd` (id `watch`) runs for
      one data-context value. Null is filtered out. Otherwise the current
      value subscription is disposed; then, for each direction flag in turn,
      a new one is created and stored in `valueSubs`, the second overwriting
      the first. An exception leaves `valueSubs` as it was (already
      disposed), and the reactive runtime, whose safe observer disposes a
      subscription whose handler throws, detaches `watch` before the
      exception reaches the data-context setter. */
  function ContextStep(bd: BindDecl, watch: SubId, s: DcState, ctx: Option<ModelObject>): StepResult
  {
    if ctx.None? then StepResult(s, Pass)
    else
      var m := ctx.value;
      var w1 := WithReleaseOpt(s.world, s.valueSubs);
      var f := FollowSource(w1, watch, bd, m);
      if bd.targetFollowsSource && f.Failure? then StepResult(DcState(WithRelease(w1, watch), s.valueSubs), Fail(f.error))
      else
        var s2 := if bd.targetFollowsSource then DcState(f.value.0, Some(f.value.1)) else DcState(w1, s.valueSubs);
        var s3 := if bd.sourceFollowsTarget then
                    var g := FollowTarget(s2.world, watch, bd, m); DcState(g.0, Some(g.1))
                  else s2;
        StepResult(s3, Pass)
  }

  /** A sequence of data-context values delivered to the handler, in order.
      Delivery ends with the first value whose handling throws, since that
      detaches the handler. */
  function Replay(bd: BindDecl, watch: SubId, s: DcState, ctxs: seq<Option<ModelObject>>): DcState
    decreases |ctxs|
  {
    if ctxs == [] then s
    else
      var r := ContextStep(bd, watch, s, ctxs[0]);
      if r.outcome.Fail? then r.state else Replay(bd, watch, r.state, ctxs[1..])
  }

  /** DataContextSubscription.Dispose: value subscription, then the
      data-context subscription. */
  function DisposeDc(s: DcState, watch: SubId): World
  {
    WithRelease(WithReleaseOpt(s.world, s.valueSubs), watch)
  }

  // ---------------------------------------------------------------------
  // Templated-parent and observe bindings

  /** BindToTemplatedParent: look up the bag entry (a missing key throws);
      only when the target follows the source, push the parent's current
      value and listen to its changes. The subscription is not returned. */
  function ParentStep(w: World, bd: BindDecl, ctx: BuildContext): Result<World, BindError>
  {
    if TemplatedParentKey !in ctx.bag then Failure(MissingBagEntry(TemplatedParentKey))
    else if !bd.targetFollowsSource then Success(w)
    else if ctx.bag[TemplatedParentKey].None? then Failure(NullTemplatedParent)
    else
      var p := ctx.bag[TemplatedParentKey].value;
      if bd.sourceMember !in p.properties then Failure(MissingMember(bd.sourceMember))
      else
        var pushed := WithTargetSet(w, bd.target, bd.targetMember, p.properties[bd.sourceMember]);
        Success(WithSubscription(pushed, ParentFeed(bd, p.id)).0)
  }

  /** BindToProperty's effect on the runtime: a data-context declaration
      subscribes to the target's data-context changes; any other goes to the
      templated-parent path. */
  function AttachWorld(w: World, bd: BindDecl, ctx: BuildContext): Result<World, BindError>
  {
    if bd.source == DataContext then Success(WithSubscription(w, WatchBinding(bd)).0)
    else ParentStep(w, bd, ctx)
  }

  /** BindSourceObservableToTarget: the named member must hold an
      observable, and a forwarding subscription is added. */
  function ForwardStep(w: World, od: ObserveDecl, m: ModelObject): (World, Outcome<BindError>)
  {
    var name := od.observableName;
    if name !in m.members then (w, Fail(MissingMember(name)))
    else match m.members[name]
      case Stream(sid) => (WithSubscription(w, Forward(od, sid)).0, Pass)
      case Null => (w, Fail(NullObservable(name)))
      case Scalar(_) => (w, Fail(NotObservable(name)))
  }

  /** The handler BindToObservable subscribes (id `watch`), for one
      data-context value: null is filtered out; otherwise the context goes to
      `ForwardStep`. Nothing is disposed, except that an exception detaches
      `watch` itself. */
  function ObserveStep(w: World, od: ObserveDecl, watch: SubId, ctx: Option<ModelObject>): (World, Outcome<BindError>)
  {
    if ctx.None? then (w, Pass)
    else
      var r := ForwardStep(w, od, ctx.value);
      if r.1.Fail? then (WithRelease(r.0, watch), r.1) else r
  }

  /** Data-context values delivered to an observe handler, up to and
      including the first one whose handling throws. */
  function ObserveReplay(w: World, od: ObserveDecl, watch: SubId, ctxs: seq<Option<ModelObject>>): World
    decreases |ctxs|
  {
    if ctxs == [] then w
    else
      var r := ObserveStep(w, od, watch, ctxs[0]);
      if r.1.Fail? then r.0 else ObserveReplay(r.0, od, watch, ctxs[1..])
  }

  /** The live forwarding subscriptions of an observe declaration. */
  function Forwards(w: World, od: ObserveDecl): set<SubId>
  {
    set id | id in w.live && w.live[id].Forward? && w.live[id].od == od
  }

  // ---------------------------------------------------------------------
  // What live subscriptions do with events

  datatype Event =
    | ModelChanged(source: ModelObject, name: string)   // PropertyChanged(name), with the members after the change
    | TargetChanged(node: NodeId, member: string, value: Value)
    | ParentChanged(node: NodeId, member: string, value: Value)
    | StreamEmitted(stream: StreamId, value: Value)

  datatype Reaction =
    | WriteTarget(node: NodeId, member: string, value: Value)
    | WriteModel(model: ModelId, member: string, value: Value)
    | Fault(error: BindError)

  /** The reaction of one live subscription of kind `k` to event `ev`, or
      None when the event does not reach its handler. */
  function React(k: SubKind, ev: Event): Option<Reaction>
  {
    match k
    case TargetFollows(_, bd, mid) =>
      if ev.ModelChanged? && ev.source.id == mid && ev.name == bd.sourceMember then
        Some(if ev.name in ev.source.members then WriteTarget(bd.target, bd.targetMember, ev.source.members[ev.name])
             else Fault(MissingMember(ev.name)))
      else None
    case SourceFollows(_, bd, m) =>
      if ev.TargetChanged? && ev.node == bd.target && ev.member == bd.targetMember then
        Some(if bd.sourceMember in m.members then WriteModel(m.id, bd.sourceMember, ev.value)
             else Fault(MissingMember(bd.sourceMember)))
      else None
    case ParentFeed(bd, p) =>
      if ev.ParentChanged? && ev.node == p && ev.member == bd.sourceMember then
        Some(WriteTarget(bd.target, bd.targetMember, ev.value))
      else None
    case Forward(od, sid) =>
      if ev.StreamEmitted? && ev.stream == sid then Some(WriteTarget(od.target, od.targetMember, ev.value))
      else None
    case WatchBinding(_) => None
    case WatchObserve(_) => None
  }

  /** The live subscriptions that react to `ev`. */
  function Deliveries(w: World, ev: Event): set<SubId>
  {
    set id | id in w.live && React(w.live[id], ev).Some?
  }
}

=== FILE: border.dfy ===
/** The Border layout: a single child slot over the children list, a measure
    and arrange policy that wraps the child in padding plus a uniform border,
    and a render order of fill, stroke, children.

    The Layout base class is not part of this model. What Border relies on of
    it is modelled by `ChildLayout`: `Measure` records the available size and
    sets the desired size through the child's own measure policy, and
    `Arrange` records the rectangle it was given. */
module Layouts {
  import opened Geometry
  import opened Wrappers
  import D = Drawing

  /** What a Border sees of its child layout. */
  class ChildLayout {
    /** The child's own measuring: desired size as a function of the
        available size. */
    const measurePolicy: Size -> Size
    var desiredSize: Size
    var measuredAgainst: Option<Size>
    var arrangedIn: Option<Rect>

    constructor(policy: Size -> Size)
      ensures measurePolicy == policy
      ensures desiredSize == Size(0.0, 0.0)
      ensures measuredAgainst == None && arrangedIn == None
    {
      measurePolicy := policy;
      desiredSize := Size(0.0, 0.0);
      measuredAgainst := None;
      arrangedIn := None;
    }

    method Measure(availableSize: Size)
      modifies this
      ensures measuredAgainst == Some(availableSize)
      ensures desiredSize == measurePolicy(availableSize)
      ensures arrangedIn == old(arrangedIn)
    {
      measuredAgainst := Some(availableSize);
      desiredSize := measurePolicy(availableSize);
    }

    method Arrange(finalRect: Rect)
      modifies this
      ensures arrangedIn == Some(finalRect)
      ensures desiredSize == old(desiredSize) && measuredAgainst == old(measuredAgainst)
    {
      arrangedIn := Some(finalRect);
    }
  }

  /** One call on a drawing context, in the order it was made. `BaseRender`
      stands for the base class's rendering of the children. */
  datatype DrawCall =
    | FillRoundedRectangle(rect: Rect, brush: Option<D.Brush>, cornerRadius: real)
    | DrawRoundedRectangle(rect: Rect, pen: D.Pen, cornerRadius: real)
    | BaseRender(children: seq<ChildLayout?>)

  /** A drawing context that records the calls made on it. */
  class RecordingContext {
    var calls: seq<DrawCall>

    constructor()
      ensures calls == []
    {
      calls := [];
    }

    method Record(c: DrawCall)
      modifies this
      ensures calls == old(calls) + [c]
    {
      calls := calls + [c];
    }
  }

  /** The combined thickness a Border puts around its child. */
  function Chrome(padding: Thickness, borderThickness: real): Thickness
  {
    Add(padding, Uniform(borderThickness))
  }

  /** The desired size of a Border whose child, if any, measures with
      `child`, given the available size and the combined thickness. */
  function MeasuredSize(child: Option<Size -> Size>, availableSize: Size, chrome: Thickness): Size
  {
    match child
    case None => Size(Horizontal(chrome), Vertical(chrome))
    case Some(policy) => Inflate(policy(Deflate(availableSize, chrome)), chrome)
  }

  /** The rectangle the child is arranged in. */
  function ChildSlot(finalSize: Size, chrome: Thickness): Rect
  {
    DeflateRect(RectOf(finalSize), chrome)
  }

  class Border {
    var children: seq<ChildLayout?>
    var padding: Thickness
    var borderThickness: real
    var cornerRadius: real
    var background: Option<D.Brush>
    var borderBrush: Option<D.Brush>
    var visualBounds: Rect

    constructor()
      ensures children == [] && Child() == null
      ensures padding == Thickness(0.0, 0.0, 0.0, 0.0) && borderThickness == 0.0 && cornerRadius == 0.0
    {
      children := [];
      padding := Thickness(0.0, 0.0, 0.0, 0.0);
      borderThickness := 0.0;
      cornerRadius := 0.0;
      background := None;
      borderBrush := None;
      visualBounds := RectOf(Size(0.0, 0.0));
    }

    /** The `Child` getter: the first of the children, or null. */
    function Child(): (c: ChildLayout?)
      reads this
      ensures c != null ==> children != [] && c == children[0]
      ensures c == null <==> children == [] || children[0] == null
    {
      if children == [] then null else children[0]
    }

    function ChildPolicy(): Option<Size -> Size>
      reads this, Child()
    {
      if Child() == null then None else Some(Child().measurePolicy)
    }

    function ChildFrame(): set<object>
      reads this
    {
      if Child() == null then {} else {Child()}
    }

    /** The `Child` setter: clear the children, then add the new one. */
    method SetChild(v: ChildLayout?)
      modifies this
      ensures children == [v] && Child() == v
      ensures padding == old(padding) && borderThickness == old(borderThickness)
      ensures cornerRadius == old(cornerRadius) && visualBounds == old(visualBounds)
      ensures background == old(background) && borderBrush == old(borderBrush)
    {
      children := [];
      children := children + [v];
    }

    method MeasureOverride(availableSize: Size) returns (r: Size)
      modifies ChildFrame()
      ensures r == MeasuredSize(old(ChildPolicy()), availableSize, Chrome(padding, borderThickness))
      ensures Child() != null ==>
        Child().measuredAgainst == Some(Deflate(availableSize, Chrome(padding, borderThickness))) &&
        r == Inflate(Child().desiredSize, Chrome(padding, borderThickness)) &&
        Child().arrangedIn == old(Child().arrangedIn)
    {
      var child := Child();
      var chrome := Add(padding, Uniform(borderThickness));
      if child != null {
        child.Measure(Deflate(availableSize, chrome));
        return Inflate(child.desiredSize, chrome);
      } else {
        return Size(chrome.left + chrome.right, chrome.bottom + chrome.top);
      }
    }

    method ArrangeOverride(finalSize: Size) returns (r: Size)
      modifies ChildFrame()
      ensures r == finalSize
      ensures Child() != null ==>
        Child().arrangedIn == Some(ChildSlot(finalSize, Chrome(padding, borderThickness))) &&
        Child().desiredSize == old(Child().desiredSize) &&
        Child().measuredAgainst == old(Child().measuredAgainst)
    {
      var child := Child();
      if child != null {
        var chrome := Add(padding, Uniform(borderThickness));
        child.Arrange(DeflateRect(RectOf(finalSize), chrome));
      }
      return finalSize;
    }

    method Render(dc: RecordingContext)
      modifies dc
      ensures dc.calls == old(dc.calls) + [
        FillRoundedRectangle(visualBounds, background, cornerRadius),
        DrawRoundedRectangle(visualBounds, D.Pen(borderBrush, borderThickness), cornerRadius),
        BaseRender(children)]
    {
      dc.Record(FillRoundedRectangle(visualBounds, background, cornerRadius));
      dc.Record(DrawRoundedRectangle(visualBounds, D.Pen(borderBrush, borderThickness), cornerRadius));
      dc.Record(BaseRender(children));
    }
  }

  /** With no child the Border asks for its padding plus the border on both
      sides. */
  lemma EmptyBorderSize(padding: Thickness, borderThickness: real, availableSize: Size)
    ensures MeasuredSize(None, availableSize, Chrome(padding, borderThickness)) ==
      Size(padding.left + padding.right + 2.0 * borderThickness,
           padding.top + padding.bottom + 2.0 * borderThickness)
  {
  }

  /** A child asking for 100 x 50 inside padding 10 and border 2 gives a
      Border of 124 x 74, whatever the available size. */
  lemma MeasureExample(availableSize: Size)
    ensures MeasuredSize(Some((_: Size) => Size(100.0, 50.0)), availableSize,
                         Chrome(Uniform(10.0), 2.0)) == Size(124.0, 74.0)
  {
  }

  /** A child that takes no more than the space it is offered makes a Border
      that takes no more than its own available space, provided that space
      holds the padding and border. */
  lemma FittingChildFits(policy: Size -> Size, availableSize: Size, chrome: Thickness)
    requires availableSize.width >= Horizontal(chrome) && availableSize.height >= Vertical(chrome)
    requires var inner := Deflate(availableSize, chrome);
      policy(inner).width <= inner.width && policy(inner).height <= inner.height
    ensures MeasuredSize(Some(policy), availableSize, chrome).width <= availableSize.width
    ensures MeasuredSize(Some(policy), availableSize, chrome).height <= availableSize.height
  {
  }

  /** The Border never asks for less than its padding and border, whether or
      not it has a child (a child asks for a size that is not negative). */
  lemma ChromeIsMinimum(child: Option<Size -> Size>, availableSize: Size, chrome: Thickness)
    requires child.Some? ==> NonNegative(child.value(Deflate(availableSize, chrome)))
    ensures MeasuredSize(child, availableSize, chrome).width >= Horizontal(chrome)
    ensures MeasuredSize(child, availableSize, chrome).height >= Vertical(chrome)
  {
  }

  /** The slot the child is arranged in has the size the child was measured
      against when the Border is arranged at the size it was offered, and it
      lies inside the Border when the thickness is not negative and fits. */
  lemma SlotMatchesMeasure(finalSize: Size, chrome: Thickness)
    requires NonNegativeThickness(chrome)
    requires finalSize.width >= Horizontal(chrome) && finalSize.height >= Vertical(chrome)
    ensures ChildSlot(finalSize, chrome).size == Deflate(finalSize, chrome)
    ensures var s := ChildSlot(finalSize, chrome);
      0.0 <= s.point.x && s.point.x + s.size.width <= finalSize.width &&
      0.0 <= s.point.y && s.point.y + s.size.height <= finalSize.height
  {
  }
}

=== FILE: console_adapter.dfy ===
/** The console drawing context: fills a rectangle with block characters by
    visiting every cell in row-major order, and throws for every other
    primitive.

    The console is modelled by `Terminal`: a buffer of fixed width and height,
    a foreground colour, a cursor and a log of what was written.
    `SetCursorPosition` fails outside the buffer, and `DrawRectangle` stops at
    that failure and swallows it, so what it draws is the longest prefix of
    the raster whose cells all lie inside the buffer. */
module Console {
  import opened Wrappers
  import opened Geometry
  import opened Drawing

  /** A character cell: column and row. */
  datatype Cell = Cell(left: int, top: int)

  datatype ConsoleError = ArgumentOutOfRange | NotImplemented

  /** What the console saw, in order. */
  datatype ConsoleOp =
    | ForegroundSet(color: Color)
    | BlockWritten(at: Cell, color: Color)

  /** A text run the text primitive receives; only its string is kept. */
  datatype FormattedText = FormattedText(text: string)

  /** `(int)x`: conversion toward zero. */
  function Trunc(x: real): int
  {
    if x >= 0.0 then x.Floor else -((-x).Floor)
  }

  /** `Trunc` drops the fraction: it moves toward zero by less than one. */
  lemma TruncTowardZero(x: real)
    ensures 0.0 <= x ==> 0 <= Trunc(x) && Trunc(x) as real <= x < Trunc(x) as real + 1.0
    ensures x < 0.0 ==> Trunc(x) <= 0 && Trunc(x) as real - 1.0 < x <= Trunc(x) as real
  {
  }

  /** How many times `for (v = start; v < start + len; v++)` runs its body:
      the length rounded up, or zero when it is not positive. */
  function Steps(len: real): nat
  {
    if len <= 0.0 then 0
    else if len.Floor as real == len then len.Floor
    else len.Floor + 1
  }

  /** The `j`th iteration of such a loop runs exactly when `j < len`. */
  lemma StepsCount(len: real, j: nat)
    ensures j < Steps(len) <==> (j as real) < len
  {
  }

  /** The cell plotted in iteration `col` of row `row`. */
  function CellAt(rect: Rect, row: nat, col: nat): Cell
  {
    Cell(Trunc(rect.point.x + col as real), Trunc(rect.point.y + row as real))
  }

  function Columns(rect: Rect): nat { Steps(rect.size.width) }

  function Lines(rect: Rect): nat { Steps(rect.size.height) }

  /** The first `n` cells of row `row`, left to right. */
  function RowCells(rect: Rect, row: nat, n: nat): seq<Cell>
  {
    if n == 0 then [] else RowCells(rect, row, n - 1) + [CellAt(rect, row, n - 1)]
  }

  /** The cells of the first `n` rows, row after row. */
  function Rows(rect: Rect, n: nat): seq<Cell>
  {
    if n == 0 then [] else Rows(rect, n - 1) + RowCells(rect, n - 1, Columns(rect))
  }

  /** Every cell the loops visit, in the order they visit them. */
  function Raster(rect: Rect): seq<Cell>
  {
    Rows(rect, Lines(rect))
  }

  predicate InBuffer(c: Cell, width: int, height: int)
  {
    0 <= c.left < width && 0 <= c.top < height
  }

  predicate AllInBuffer(cells: seq<Cell>, width: int, height: int)
  {
    forall i :: 0 <= i < |cells| ==> InBuffer(cells[i], width, height)
  }

  /** The index of the first cell outside the buffer, or the length when
      there is none. */
  function FirstOutside(cells: seq<Cell>, width: int, height: int): (k: nat)
    ensures k <= |cells|
    ensures forall i :: 0 <= i < k ==> InBuffer(cells[i], width, height)
    ensures k < |cells| ==> !InBuffer(cells[k], width, height)
  {
    if cells == [] then 0
    else if !InBuffer(cells[0], width, height) then 0
    else 1 + FirstOutside(cells[1..], width, height)
  }

  /** The cells `DrawRectangle` plots on a buffer of the given size. */
  function Drawn(rect: Rect, width: int, height: int): seq<Cell>
  {
    Raster(rect)[..FirstOutside(Raster(rect), width, height)]
  }

  /** The log entries for writing the given cells in the given colour. */
  function Blocks(cells: seq<Cell>, color: Color): (ops: seq<ConsoleOp>)
    ensures |ops| == |cells|
  {
    seq(|cells|, i requires 0 <= i < |cells| => BlockWritten(cells[i], color))
  }

  class Terminal {
    const bufferWidth: int
    const bufferHeight: int
    var foreground: Color
    var cursor: Cell
    var log: seq<ConsoleOp>

    constructor(width: int, height: int, initial: Color)
      ensures bufferWidth == width && bufferHeight == height
      ensures foreground == initial && cursor == Cell(0, 0) && log == []
    {
      bufferWidth := width;
      bufferHeight := height;
      foreground := initial;
      cursor := Cell(0, 0);
      log := [];
    }

    /** `Console.ForegroundColor = c`. */
    method SetForeground(c: Color)
      modifies this
      ensures foreground == c && log == old(log) + [ForegroundSet(c)]
      ensures cursor == old(cursor)
    {
      foreground := c;
      log := log + [ForegroundSet(c)];
    }

    /** `Console.SetCursorPosition`: fails outside the buffer. */
    method SetCursorPosition(left: int, top: int) returns (o: Outcome<ConsoleError>)
      modifies this
      ensures InBuffer(Cell(left, top), bufferWidth, bufferHeight) ==> o == Pass && cursor == Cell(left, top)
      ensures !InBuffer(Cell(left, top), bufferWidth, bufferHeight) ==>
        o == Fail(ArgumentOutOfRange) && cursor == old(cursor)
      ensures foreground == old(foreground) && log == old(log)
    {
      if InBuffer(Cell(left, top), bufferWidth, bufferHeight) {
        cursor := Cell(left, top);
        return Pass;
      }
      return Fail(ArgumentOutOfRange);
    }

    /** `Console.Write` of one block character at the cursor. */
    method WriteBlock()
      modifies this
      ensures log == old(log) + [BlockWritten(old(cursor), foreground)]
      ensures foreground == old(foreground) && cursor == old(cursor)
    {
      log := log + [BlockWritten(cursor, foreground)];
    }
  }

  class ConsoleAdapter {
    const terminal: Terminal
    /** The mapping to the nearest console colour. */
    const closestConsoleColor: Color -> Color

    constructor(t: Terminal, closest: Color -> Color)
      ensures terminal == t && closestConsoleColor == closest
    {
      terminal := t;
      closestConsoleColor := closest;
    }

    /** Fill `rect` with blocks in the console colour nearest `fillColor`.
        Whatever the painting throws is swallowed. */
    method DrawRectangle(rect: Rect, fillColor: Color)
      modifies terminal
      ensures fillColor == Transparent || IsEmpty(rect) ==>
        terminal.log == old(terminal.log) && terminal.foreground == old(terminal.foreground) &&
        terminal.cursor == old(terminal.cursor)
      ensures !(fillColor == Transparent || IsEmpty(rect)) ==>
        var color := closestConsoleColor(fillColor);
        var cells := Drawn(rect, terminal.bufferWidth, terminal.bufferHeight);
        terminal.log == old(terminal.log) + [ForegroundSet(color)] + Blocks(cells, color) &&
        terminal.foreground == color &&
        terminal.cursor == LastOr(cells, old(terminal.cursor))
    {
      if fillColor == Transparent || IsEmpty(rect) {
        return;
      }
      var swallowed := Paint(rect, closestConsoleColor(fillColor));
    }

    /** The guarded block of `DrawRectangle`: set the colour, then plot every
        cell of the raster in row-major order, failing at the first cell
        outside the buffer. */
    method Paint(rect: Rect, color: Color) returns (o: Outcome<ConsoleError>)
      modifies terminal
      ensures o == Pass <==> AllInBuffer(Raster(rect), terminal.bufferWidth, terminal.bufferHeight)
      ensures o != Pass ==> o == Fail(ArgumentOutOfRange)
      ensures var cells := Drawn(rect, terminal.bufferWidth, terminal.bufferHeight);
        terminal.log == old(terminal.log) + [ForegroundSet(color)] + Blocks(cells, color) &&
        terminal.foreground == color &&
        terminal.cursor == LastOr(cells, old(terminal.cursor))
    {
      ghost var log0 := terminal.log + [ForegroundSet(color)];
      ghost var cursor0 := terminal.cursor;
      ghost var width, height := terminal.bufferWidth, terminal.bufferHeight;
      terminal.SetForeground(color);
      var y := rect.point.y;
      ghost var row: nat := 0;
      ghost var plotted: seq<Cell> := [];
      while y < rect.point.y + rect.size.height
        invariant row <= Lines(rect) && y == rect.point.y + row as real
        invariant plotted == Rows(rect, row)
        invariant terminal.foreground == color
        invariant terminal.log == log0 + Blocks(plotted, color)
        invariant AllInBuffer(plotted, width, height)
        invariant terminal.cursor == LastOr(plotted, cursor0)
        decreases Lines(rect) - row
      {
        StepsCount(rect.size.height, row);
        var x := rect.point.x;
        ghost var col: nat := 0;
        ghost var done := plotted;
        while x < rect.point.x + rect.size.width
          invariant col <= Columns(rect) && x == rect.point.x + col as real
          invariant plotted == done + RowCells(rect, row, col)
          invariant terminal.foreground == color
          invariant terminal.log == log0 + Blocks(plotted, color)
          invariant AllInBuffer(plotted, width, height)
          invariant terminal.cursor == LastOr(plotted, cursor0)
          decreases Columns(rect) - col
        {
          StepsCount(rect.size.width, col);
          var plot := Plot(terminal, x, y);
          if plot.Fail? {
            StopsAtFirstOutside(rect, row, col, plotted, width, height);
            return plot;
          }
          ghost var c := CellAt(rect, row, col);
          assert c == Cell(Trunc(x), Trunc(y)) && InBuffer(c, width, height);
          assert terminal.log == log0 + Blocks(plotted, color) + [BlockWritten(c, color)];
          BlocksSnoc(plotted, c, color);
          AllInBufferSnoc(plotted, c, width, height);
          plotted := plotted + [c];
          x := x + 1.0;
          col := col + 1;
        }
        StepsCount(rect.size.width, col);
        y := y + 1.0;
        row := row + 1;
      }
      StepsCount(rect.size.height, row);
      DrawnWholeIffInside(rect, width, height);
      return Pass;
    }

    /** Move the cursor to the truncated coordinates and write a block. */
    static method Plot(terminal: Terminal, x: real, y: real) returns (o: Outcome<ConsoleError>)
      modifies terminal
      ensures var c := Cell(Trunc(x), Trunc(y));
        (InBuffer(c, terminal.bufferWidth, terminal.bufferHeight) ==>
           o == Pass && terminal.cursor == c &&
           terminal.log == old(terminal.log) + [BlockWritten(c, terminal.foreground)]) &&
        (!InBuffer(c, terminal.bufferWidth, terminal.bufferHeight) ==>
           o == Fail(ArgumentOutOfRange) && terminal.cursor == old(terminal.cursor) &&
           terminal.log == old(terminal.log))
      ensures terminal.foreground == old(terminal.foreground)
    {
      var left := Trunc(x);
      var top := Trunc(y);
      o := terminal.SetCursorPosition(left, top);
      if o.Fail? {
        return;
      }
      terminal.WriteBlock();
    }

    method DrawRoundedRectangle(rect: Rect, brush: Option<Brush>, pen: Pen, cornerRadius: real)
      returns (o: Outcome<ConsoleError>)
      ensures o == Fail(NotImplemented)
    {
      return Fail(NotImplemented);
    }

    method DrawStrokedRectangle(rect: Rect, brush: Option<Brush>, pen: Pen)
      returns (o: Outcome<ConsoleError>)
      ensures o == Fail(NotImplemented)
    {
      return Fail(NotImplemented);
    }

    method DrawText(point: Point, brush: Option<Brush>, text: string)
      returns (o: Outcome<ConsoleError>)
      ensures o == Fail(NotImplemented)
    {
      return Fail(NotImplemented);
    }

    method DrawFormattedText(text: FormattedText, point: Point)
      returns (o: Outcome<ConsoleError>)
      ensures o == Fail(NotImplemented)
    {
      return Fail(NotImplemented);
    }
  }

  function LastOr(cells: seq<Cell>, otherwise: Cell): Cell
  {
    if cells == [] then otherwise else cells[|cells| - 1]
  }

  lemma AllInBufferSnoc(cells: seq<Cell>, c: Cell, width: int, height: int)
    requires AllInBuffer(cells, width, height) && InBuffer(c, width, height)
    ensures AllInBuffer(cells + [c], width, height)
  {
  }

  lemma BlocksSnoc(cells: seq<Cell>, c: Cell, color: Color)
    ensures Blocks(cells + [c], color) == Blocks(cells, color) + [BlockWritten(c, color)]
  {
  }

  /** Row `row` holds one cell per column, each the one plotted in that
      column. */
  lemma {:induction false} RowCellsAt(rect: Rect, row: nat, n: nat)
    ensures |RowCells(rect, row, n)| == n
    ensures forall col :: 0 <= col < n ==> RowCells(rect, row, n)[col] == CellAt(rect, row, col)
  {
    if n > 0 {
      RowCellsAt(rect, row, n - 1);
    }
  }

  /** The first `m` cells of a row are the start of its first `n` cells. */
  lemma {:induction false} RowCellsPrefix(rect: Rect, row: nat, m: nat, n: nat) returns (rest: seq<Cell>)
    requires m <= n
    ensures RowCells(rect, row, n) == RowCells(rect, row, m) + rest
  {
    if m == n {
      rest := [];
    } else {
      var r := RowCellsPrefix(rect, row, m, n - 1);
      rest := r + [CellAt(rect, row, n - 1)];
    }
  }

  /** The first `m` rows are the start of the first `n` rows. */
  lemma {:induction false} RowsPrefix(rect: Rect, m: nat, n: nat) returns (rest: seq<Cell>)
    requires m <= n
    ensures Rows(rect, n) == Rows(rect, m) + rest
  {
    if m == n {
      rest := [];
    } else {
      var r := RowsPrefix(rect, m, n - 1);
      rest := r + RowCells(rect, n - 1, Columns(rect));
    }
  }

  /** Row-major order: the raster is the earlier rows, then the earlier cells
      of row `row`, then the cell in column `col`, then the rest. */
  lemma RasterSplit(rect: Rect, row: nat, col: nat) returns (tail: seq<Cell>)
    requires row < Lines(rect) && col < Columns(rect)
    ensures Raster(rect) == Rows(rect, row) + RowCells(rect, row, col) + [CellAt(rect, row, col)] + tail
  {
    var rest := RowsPrefix(rect, row + 1, Lines(rect));
    var after := RowCellsPrefix(rect, row, col + 1, Columns(rect));
    tail := after + rest;
  }

  /** When the cell in row `row`, column `col` is the first outside the
      buffer, what is drawn is everything before it. */
  lemma StopsAtFirstOutside(rect: Rect, row: nat, col: nat, plotted: seq<Cell>, width: int, height: int)
    requires row < Lines(rect) && col < Columns(rect)
    requires plotted == Rows(rect, row) + RowCells(rect, row, col)
    requires AllInBuffer(plotted, width, height) && !InBuffer(CellAt(rect, row, col), width, height)
    ensures Drawn(rect, width, height) == plotted
    ensures !AllInBuffer(Raster(rect), width, height)
  {
    var tail := RasterSplit(rect, row, col);
    StopsBefore(plotted, CellAt(rect, row, col), tail, width, height);
  }

  lemma StopsBefore(prefix: seq<Cell>, c: Cell, tail: seq<Cell>, width: int, height: int)
    requires AllInBuffer(prefix, width, height) && !InBuffer(c, width, height)
    ensures var cells := prefix + [c] + tail;
      cells[..FirstOutside(cells, width, height)] == prefix
  {
    var cells := prefix + [c] + tail;
    assert cells[..|prefix|] == prefix;
    FirstOutsideIs(cells, |prefix|, width, height);
  }

  /** `FirstOutside` is the only index with its two properties. */
  lemma FirstOutsideIs(cells: seq<Cell>, k: nat, width: int, height: int)
    requires k <= |cells|
    requires AllInBuffer(cells[..k], width, height)
    requires k < |cells| ==> !InBuffer(cells[k], width, height)
    ensures FirstOutside(cells, width, height) == k
  {
    forall i | 0 <= i < k
      ensures InBuffer(cells[i], width, height)
    {
      assert cells[..k][i] == cells[i];
    }
  }

  /** The raster has one cell per iteration of the two loops. */
  lemma {:induction false} RowsLength(rect: Rect, n: nat)
    ensures |Rows(rect, n)| == n * Columns(rect)
  {
    if n > 0 {
      RowsLength(rect, n - 1);
      RowCellsAt(rect, n - 1, Columns(rect));
      assert n * Columns(rect) == (n - 1) * Columns(rect) + Columns(rect);
    }
  }

  /** Row-major order: iteration `col` of row `row` plots the cell at index
      `row * Columns + col`, and the raster holds `Lines * Columns` cells. */
  lemma RowMajor(rect: Rect, row: nat, col: nat)
    requires row < Lines(rect) && col < Columns(rect)
    ensures |Raster(rect)| == Lines(rect) * Columns(rect)
    ensures row * Columns(rect) + col < |Raster(rect)|
    ensures Raster(rect)[row * Columns(rect) + col] == CellAt(rect, row, col)
  {
    RowsLength(rect, row);
    RowsLength(rect, Lines(rect));
    RowCellsAt(rect, row, col);
    var tail := RasterSplit(rect, row, col);
  }

  /** A rectangle with no width or no height visits no cell. */
  lemma {:induction false} DegenerateRasterIsEmpty(rect: Rect)
    requires rect.size.width <= 0.0 || rect.size.height <= 0.0
    ensures Raster(rect) == []
  {
    if rect.size.width <= 0.0 {
      RowsLength(rect, Lines(rect));
    }
  }

  /** A transparent fill and an empty rectangle draw nothing; a rectangle
      with no width or no height but not empty still sets the colour and
      plots no cell. */
  lemma NothingDrawn(rect: Rect, width: int, height: int)
    requires rect.size.width <= 0.0 || rect.size.height <= 0.0
    ensures Drawn(rect, width, height) == []
  {
    DegenerateRasterIsEmpty(rect);
  }

  /** What is drawn is the whole raster exactly when every cell of the raster
      lies inside the buffer; otherwise drawing stops short, before the first
      cell outside. */
  lemma DrawnWholeIffInside(rect: Rect, width: int, height: int)
    ensures Drawn(rect, width, height) <= Raster(rect)
    ensures Drawn(rect, width, height) == Raster(rect) <==> AllInBuffer(Raster(rect), width, height)
    ensures !AllInBuffer(Raster(rect), width, height) ==>
      |Drawn(rect, width, height)| < |Raster(rect)| &&
      !InBuffer(Raster(rect)[|Drawn(rect, width, height)|], width, height)
  {
    var r := Raster(rect);
    var k := FirstOutside(r, width, height);
    if k == |r| {
      assert r[..k] == r;
    } else {
      assert |r[..k]| < |r|;
    }
  }

  /** What a visible fill appends to the console log: the colour is set
      once, first, and every later entry is a block in that colour, inside
      the buffer, at the raster's cells in visiting order. */
  lemma FillLog(rect: Rect, color: Color, width: int, height: int)
    ensures var log := [ForegroundSet(color)] + Blocks(Drawn(rect, width, height), color);
      |log| == |Drawn(rect, width, height)| + 1 &&
      (forall i | 0 <= i < |log| :: log[i].ForegroundSet? <==> i == 0) &&
      (forall i | 1 <= i < |log| ::
        log[i].BlockWritten? && log[i].color == color && InBuffer(log[i].at, width, height) &&
        log[i].at == Raster(rect)[i - 1])
  {
    var cells := Drawn(rect, width, height);
    var log := [ForegroundSet(color)] + Blocks(cells, color);
    forall i | 1 <= i < |log|
      ensures log[i] == BlockWritten(cells[i - 1], color)
    {
      assert log[i] == Blocks(cells, color)[i - 1];
    }
  }

  /** A rectangle with whole-number origin and size. */
  function WholeRect(x0: int, y0: int, w: nat, h: nat): Rect
  {
    Rect(Point(x0 as real, y0 as real), Size(w as real, h as real))
  }

  predicate Distinct(cells: seq<Cell>)
  {
    forall i, j :: 0 <= i < j < |cells| ==> cells[i] != cells[j]
  }

  lemma WholeRowCells(x0: int, y0: int, w: nat, h: nat, row: nat)
    ensures Columns(WholeRect(x0, y0, w, h)) == w
    ensures |RowCells(WholeRect(x0, y0, w, h), row, w)| == w
    ensures forall col :: 0 <= col < w ==>
      RowCells(WholeRect(x0, y0, w, h), row, w)[col] == Cell(x0 + col, y0 + row)
  {
    var rect := WholeRect(x0, y0, w, h);
    RowCellsAt(rect, row, w);
    forall col | 0 <= col < w
      ensures CellAt(rect, row, col) == Cell(x0 + col, y0 + row)
    {
      assert rect.point.x + col as real == (x0 + col) as real;
      assert rect.point.y + row as real == (y0 + row) as real;
      TruncTowardZero((x0 + col) as real);
      TruncTowardZero((y0 + row) as real);
    }
  }

  /** With whole-number origin and size, the first `n` rows are exactly the
      cells of the first `n` rows of the rectangle, each once. */
  lemma {:induction false} WholeRows(x0: int, y0: int, w: nat, h: nat, n: nat)
    ensures Distinct(Rows(WholeRect(x0, y0, w, h), n))
    ensures forall c :: c in Rows(WholeRect(x0, y0, w, h), n) <==>
      x0 <= c.left < x0 + w && y0 <= c.top < y0 + n
  {
    var rect := WholeRect(x0, y0, w, h);
    if n > 0 {
      WholeRows(x0, y0, w, h, n - 1);
      WholeRowCells(x0, y0, w, h, n - 1);
      var done, line := Rows(rect, n - 1), RowCells(rect, n - 1, w);
      assert Rows(rect, n) == done + line;
      forall c: Cell | x0 <= c.left < x0 + w && c.top == y0 + n - 1
        ensures c in line
      {
        assert line[c.left - x0] == c;
      }
      forall i, j | 0 <= i < j < |done + line|
        ensures (done + line)[i] != (done + line)[j]
      {
        if j >= |done| && i < |done| {
          assert done[i] in done;
        }
      }
    }
  }

  /** With whole-number origin and size, the raster is every cell of the
      rectangle, each exactly once: `w * h` cells. */
  lemma WholeRaster(x0: int, y0: int, w: nat, h: nat)
    ensures |Raster(WholeRect(x0, y0, w, h))| == w * h
    ensures Distinct(Raster(WholeRect(x0, y0, w, h)))
    ensures forall c :: c in Raster(WholeRect(x0, y0, w, h)) <==>
      x0 <= c.left < x0 + w && y0 <= c.top < y0 + h
  {
    var rect := WholeRect(x0, y0, w, h);
    assert Lines(rect) == h;
    WholeRowCells(x0, y0, w, h, 0);
    RowsLength(rect, h);
    WholeRows(x0, y0, w, h, h);
  }

  /** Conversion toward zero sends -0.5 and 0.5 to the same column: a
      rectangle two wide starting at -0.5 plots column 0 twice. */
  lemma TruncationMergesAtZero()
    ensures Raster(Rect(Point(-0.5, 0.0), Size(2.0, 1.0))) == [Cell(0, 0), Cell(0, 0)]
  {
    var rect := Rect(Point(-0.5, 0.0), Size(2.0, 1.0));
    assert Lines(rect) == 1 && Columns(rect) == 2;
    assert CellAt(rect, 0, 0) == Cell(0, 0);
    assert CellAt(rect, 0, 1) == Cell(0, 0);
    assert Rows(rect, 1) == RowCells(rect, 0, 2);
  }
}

=== FILE: drawing.dfy ===
/** Colours, brushes and pens as the drawing primitives receive them. */
module Drawing {
  import opened Wrappers

  /** An ARGB colour; `Color.Equals` compares the four channels. */
  datatype Color = Color(alpha: nat, red: nat, green: nat, blue: nat)

  /** The distinguished fully transparent colour. Its channel values are an
      assumption of this model; only its identity matters. */
  const Transparent: Color := Color(0, 255, 255, 255)

  datatype Brush = SolidColorBrush(color: Color)

  /** `new Pen(brush, thickness)`; the brush may be null. */
  datatype Pen = Pen(brush: Option<Brush>, thickness: real)
}

=== FILE: geometry.dfy ===
/** Sizes, points, rectangles and thicknesses, over real numbers.

    The toolkit's geometry types are not part of this model; the operations
    below are the behaviour this model assumes of them: Inflate adds the
    horizontal and vertical thickness, Deflate subtracts it and clamps at
    zero, and a rectangle is empty when both its width and height are zero. */
module Geometry {

  datatype Size = Size(width: real, height: real)

  datatype Point = Point(x: real, y: real)

  datatype Rect = Rect(point: Point, size: Size)

  datatype Thickness = Thickness(left: real, top: real, right: real, bottom: real)

  /** `new Thickness(uniform)`. */
  function Uniform(t: real): Thickness
  {
    Thickness(t, t, t, t)
  }

  /** `Thickness + Thickness`, side by side. */
  function Add(a: Thickness, b: Thickness): Thickness
  {
    Thickness(a.left + b.left, a.top + b.top, a.right + b.right, a.bottom + b.bottom)
  }

  function Horizontal(t: Thickness): real { t.left + t.right }

  function Vertical(t: Thickness): real { t.top + t.bottom }

  function ClampAtZero(x: real): real { if x < 0.0 then 0.0 else x }

  /** Assumed: `Size.Deflate`. */
  function Deflate(s: Size, t: Thickness): Size
  {
    Size(ClampAtZero(s.width - Horizontal(t)), ClampAtZero(s.height - Vertical(t)))
  }

  /** Assumed: `Size.Inflate`. */
  function Inflate(s: Size, t: Thickness): Size
  {
    Size(s.width + Horizontal(t), s.height + Vertical(t))
  }

  /** `new Rect(size)`: the rectangle at the origin. */
  function RectOf(s: Size): Rect
  {
    Rect(Point(0.0, 0.0), s)
  }

  /** Assumed: `Rect.Deflate`: the origin moves by the left and top sides and
      the size is deflated. */
  function DeflateRect(r: Rect, t: Thickness): Rect
  {
    Rect(Point(r.point.x + t.left, r.point.y + t.top), Deflate(r.size, t))
  }

  /** Assumed: `Rect.IsEmpty`. */
  predicate IsEmpty(r: Rect)
  {
    r.size.width == 0.0 && r.size.height == 0.0
  }

  predicate NonNegative(s: Size) { s.width >= 0.0 && s.height >= 0.0 }

  predicate NonNegativeThickness(t: Thickness)
  {
    t.left >= 0.0 && t.top >= 0.0 && t.right >= 0.0 && t.bottom >= 0.0
  }

  /** Deflating undoes inflating, for a size that is not negative. */
  lemma DeflateUndoesInflate(s: Size, t: Thickness)
    requires NonNegative(s)
    ensures Deflate(Inflate(s, t), t) == s
  {
  }

  /** Inflating a deflated size gives back the size when the thickness fits
      inside it; otherwise the result is the thickness alone, wider or taller
      than the size. */
  lemma InflateAfterDeflate(s: Size, t: Thickness)
    ensures var r := Inflate(Deflate(s, t), t);
      (s.width >= Horizontal(t) ==> r.width == s.width) &&
      (s.width < Horizontal(t) ==> r.width == Horizontal(t) > s.width) &&
      (s.height >= Vertical(t) ==> r.height == s.height) &&
      (s.height < Vertical(t) ==> r.height == Vertical(t) > s.height)
  {
  }
}

=== FILE: wrappers.dfy ===
/** Optional values, results and pass/fail outcomes: how the model spells the
    source's nulls and exceptions. */
module Wrappers {

  datatype Option<+T> = None | Some(value: T)

  /** Outcome of an operation that either returns a value or throws. */
  datatype Result<+R, +E> = Success(value: R) | Failure(error: E)

  /** Outcome of an operation that returns nothing or throws. */
  datatype Outcome<+E> = Pass | Fail(error: E)

  /** The elements of an optional value, as a set. */
  function OptSet<T>(o: Option<T>): set<T>
  {
    if o.Some? then {o.value} else {}
  }
}

=== FILE: xaml_builder.dfy ===
/** The XAML object builder's binding bookkeeping (OmniGuiXamlBuilder) and
    the rebinding state machine of a data-context binding
    (DataContextSubscription), as classes over the shared reactive runtime. */
module XamlBuilder {
  import opened Wrappers
  import opened BindingModel
  import BindingLemmas

  /** The reactive runtime: every subscription, disposal and property write
      goes through it. */
  class EventHub {
    var world: World

    constructor ()
      ensures world == World(map[], 0, [])
    {
      world := World(map[], 0, []);
    }

    method Subscribe(k: SubKind) returns (id: SubId)
      modifies this
      ensures (world, id) == WithSubscription(old(world), k)
    {
      id := world.nextId;
      world := World(world.live[id := k], id + 1, world.trace + [Subscribed(id, k)]);
    }

    method Dispose(id: SubId)
      modifies this
      ensures world == WithRelease(old(world), id)
    {
      if id in world.live {
        world := World(world.live - {id}, world.nextId, world.trace + [Disposed(id)]);
      }
    }

    method SetTarget(node: NodeId, member: string, v: Value)
      modifies this
      ensures world == WithTargetSet(old(world), node, member, v)
    {
      world := world.(trace := world.trace + [TargetSet(node, member, v)]);
    }

    method BaseAssign(a: Assignment)
      modifies this
      ensures world == WithBaseAssigned(old(world), a)
    {
      world := world.(trace := world.trace + [BaseAssigned(a)]);
    }
  }

  /** Subscribes to the data-context changes of a bind declaration's target
      and keeps, in `valueChangeSubs`, the value subscription made for the
      latest non-null context. */
  class DataContextSubscription {
    const hub: EventHub
    const bd: BindDecl
    var valueChangeSubs: Option<SubId>
    const dataContextSubs: SubId

    /** The runtime is consistent; the value subscription, if any, is younger
        than the data-context subscription; and with a single direction flag
        no value subscription of this handler other than the recorded one is
        live. */
    ghost predicate Valid()
      reads this, hub
    {
      WorldValid(hub.world) &&
      dataContextSubs < hub.world.nextId &&
      (valueChangeSubs.Some? ==> dataContextSubs < valueChangeSubs.value) &&
      (bd.targetFollowsSource != bd.sourceFollowsTarget ==>
        Owned(hub.world, dataContextSubs) <= OptSet(valueChangeSubs))
    }

    function State(): DcState
      reads this, hub
    {
      DcState(hub.world, valueChangeSubs)
    }

    constructor (hub: EventHub, bd: BindDecl)
      requires WorldValid(hub.world)
      modifies hub
      ensures this.hub == hub && this.bd == bd && valueChangeSubs == None
      ensures (hub.world, dataContextSubs) == WithSubscription(old(hub.world), WatchBinding(bd))
      ensures Valid()
    {
      BindingLemmas.FreshWatchOwnsNothing(hub.world, WatchBinding(bd));
      this.hub := hub;
      this.bd := bd;
      valueChangeSubs := None;
      var id := hub.Subscribe(WatchBinding(bd));
      dataContextSubs := id;
    }

    /** The handler for one data-context value, as the runtime delivers it
        while the data-context subscription is live. When the handler throws,
        the runtime disposes the data-context subscription, so the binding
        receives no further data contexts. */
    method OnDataContext(ctx: Option<ModelObject>) returns (outcome: Outcome<BindError>)
      requires Valid()
      requires dataContextSubs in hub.world.live
      modifies this, hub
      ensures Valid()
      ensures dataContextSubs in hub.world.live <==> outcome == Pass
      ensures StepResult(State(), outcome) == ContextStep(bd, dataContextSubs, old(State()), ctx)
    {
      ghost var s0 := State();
      BindingLemmas.StepKeepsValid(bd, dataContextSubs, s0, ctx);
      if bd.targetFollowsSource != bd.sourceFollowsTarget {
        BindingLemmas.SingleFlagStep(bd, dataContextSubs, s0, ctx);
      }
      if ctx.None? {
        return Pass;
      }
      var model := ctx.value;
      if valueChangeSubs.Some? {
        hub.Dispose(valueChangeSubs.value);
      }
      if bd.targetFollowsSource {
        var r := SubscribeTargetToSource(hub, dataContextSubs, bd, model);
        if r.Failure? {
          // the runtime detaches a handler that throws
          hub.Dispose(dataContextSubs);
          return Fail(r.error);
        }
        valueChangeSubs := Some(r.value);
      }
      if bd.sourceFollowsTarget {
        var id := SubscribeSourceToTarget(hub, dataContextSubs, bd, model);
        valueChangeSubs := Some(id);
      }
      outcome := Pass;
    }

    /** Writes every change of the target property back to the model member. */
    static method SubscribeSourceToTarget(hub: EventHub, owner: SubId, bd: BindDecl, model: ModelObject) returns (id: SubId)
      modifies hub
      ensures (hub.world, id) == FollowTarget(old(hub.world), owner, bd, model)
    {
      id := hub.Subscribe(SourceFollows(owner, bd, model));
    }

    /** Pushes the member's current value into the target, then each value
        announced by PropertyChanged for that member. */
    static method SubscribeTargetToSource(hub: EventHub, owner: SubId, bd: BindDecl, model: ModelObject)
      returns (r: Result<SubId, BindError>)
      modifies hub
      ensures var f := FollowSource(old(hub.world), owner, bd, model);
        (r.Failure? ==> f.Failure? && r.error == f.error && hub.world == old(hub.world)) &&
        (r.Success? ==> f.Success? && (hub.world, r.value) == f.value)
    {
      if bd.sourceMember !in model.members {
        return Failure(MissingMember(bd.sourceMember));
      }
      var currentValue := model.members[bd.sourceMember];
      if !model.notifies {
        return Failure(NotNotifying);
      }
      hub.SetTarget(bd.target, bd.targetMember, currentValue);
      var id := hub.Subscribe(TargetFollows(owner, bd, model.id));
      return Success(id);
    }

    method Dispose()
      modifies hub
      ensures hub.world == DisposeDc(old(State()), dataContextSubs)
    {
      if valueChangeSubs.Some? {
        hub.Dispose(valueChangeSubs.value);
      }
      hub.Dispose(dataContextSubs);
    }
  }

  /** What BindToProperty returns: Disposable.Empty or a data-context
      subscription. */
  datatype Handle = EmptyHandle | Tracked(subscription: DataContextSubscription)

  /** Disposing a handle; disposing Disposable.Empty does nothing. */
  function HandleReleased(h: Handle, w: World): World
    reads if h.Tracked? then {h.subscription} else {}
  {
    if h.Tracked? then DisposeDc(DcState(w, h.subscription.valueChangeSubs), h.subscription.dataContextSubs)
    else w
  }

  class OmniGuiXamlBuilder {
    const hub: EventHub
    var bindings: map<BindDecl, Handle>

    ghost predicate Valid()
      reads this, hub
    {
      WorldValid(hub.world) &&
      forall bd | bd in bindings && bindings[bd].Tracked? ::
        bindings[bd].subscription.hub == hub && bindings[bd].subscription.bd == bd
    }

    /** The runtime after ClearExistingBinding(bd). */
    ghost function ClearedWorld(bd: BindDecl): World
      reads this, hub, if bd in bindings && bindings[bd].Tracked? then {bindings[bd].subscription} else {}
    {
      if bd in bindings then HandleReleased(bindings[bd], hub.world) else hub.world
    }

    constructor (hub: EventHub)
      requires WorldValid(hub.world)
      ensures this.hub == hub && bindings == map[] && Valid()
    {
      this.hub := hub;
      bindings := map[];
    }

    /** Dispatch: an observe declaration is bound to its observable, a bind
        declaration replaces any earlier binding of the same declaration, and
        anything else is assigned by the base builder. */
    method PerformAssigment(a: Assignment, buildContext: BuildContext) returns (outcome: Outcome<BindError>)
      requires Valid()
      modifies this, hub
      ensures Valid()
      ensures a.asObserve.Some? ==>
        outcome == Pass && bindings == old(bindings) &&
        hub.world == WithSubscription(old(hub.world), WatchObserve(a.asObserve.value)).0
      ensures a.asObserve.None? && a.asBind.None? ==>
        outcome == Pass && bindings == old(bindings) &&
        hub.world == WithBaseAssigned(old(hub.world), a)
      ensures a.asObserve.None? && a.asBind.Some? ==>
        var bd := a.asBind.value;
        var cleared := old(ClearedWorld(bd));
        var attached := AttachWorld(cleared, bd, buildContext);
        outcome != Fail(DuplicateKey) &&
        (attached.Failure? ==>
          outcome == Fail(attached.error) && hub.world == cleared && bindings == old(bindings) - {bd}) &&
        (attached.Success? ==>
          outcome == Pass && hub.world == attached.value &&
          bd in bindings && bindings == old(bindings)[bd := bindings[bd]] &&
          (bindings[bd].Tracked? <==> bd.source == DataContext) &&
          (bindings[bd].Tracked? ==>
            fresh(bindings[bd].subscription) && bindings[bd].subscription.Valid() &&
            bindings[bd].subscription.dataContextSubs == cleared.nextId))
    {
      var od := a.asObserve;
      var bd := a.asBind;
      if od.Some? {
        BindToObservable(hub, od.value);
      } else if bd.Some? {
        ClearExistingBinding(bd.value);
        var bindingSubscription := BindToProperty(buildContext, bd.value);
        if bindingSubscription.Failure? {
          return Fail(bindingSubscription.error);
        }
        outcome := AddExistingBinding(bd.value, bindingSubscription.value);
        assert outcome == Pass;
      } else {
        hub.BaseAssign(a);
      }
      outcome := Pass;
    }

    /** Dictionary.Add: throws when the key is already present. */
    method AddExistingBinding(bd: BindDecl, subs: Handle) returns (outcome: Outcome<BindError>)
      modifies this
      ensures outcome == (if bd in old(bindings) then Fail(DuplicateKey) else Pass)
      ensures bindings == if bd in old(bindings) then old(bindings) else old(bindings)[bd := subs]
    {
      if bd in bindings {
        return Fail(DuplicateKey);
      }
      bindings := bindings[bd := subs];
      outcome := Pass;
    }

    /** Disposes the handle recorded for `bd`, if any, then forgets it. */
    method ClearExistingBinding(bd: BindDecl)
      requires Valid()
      modifies this, hub
      ensures Valid()
      ensures bindings == old(bindings) - {bd}
      ensures hub.world == old(ClearedWorld(bd))
    {
      if bd in bindings {
        var h := bindings[bd];
        if h.Tracked? {
          BindingLemmas.ReleaseKeepsValid(hub.world, h.subscription.valueChangeSubs);
          BindingLemmas.ReleaseKeepsValid(
            WithReleaseOpt(hub.world, h.subscription.valueChangeSubs), Some(h.subscription.dataContextSubs));
          h.subscription.Dispose();
        }
        bindings := bindings - {bd};
      }
    }

    /** A data-context declaration yields a new data-context subscription;
        any other goes to the templated-parent path. */
    method BindToProperty(buildContext: BuildContext, bd: BindDecl) returns (r: Result<Handle, BindError>)
      requires WorldValid(hub.world)
      modifies hub
      ensures WorldValid(hub.world)
      ensures var attached := AttachWorld(old(hub.world), bd, buildContext);
        (r.Failure? ==> attached.Failure? && r.error == attached.error && hub.world == old(hub.world)) &&
        (r.Success? ==> attached.Success? && hub.world == attached.value)
      ensures bd.source == DataContext ==>
        r.Success? && r.value.Tracked? && fresh(r.value.subscription) &&
        r.value.subscription.hub == hub && r.value.subscription.bd == bd &&
        r.value.subscription.Valid() && r.value.subscription.dataContextSubs == old(hub.world).nextId
      ensures bd.source != DataContext && r.Success? ==> r.value == EmptyHandle
    {
      if bd.source == DataContext {
        var s := new DataContextSubscription(hub, bd);
        return Success(Tracked(s));
      } else {
        r := BindToTemplatedParent(hub, buildContext, bd);
      }
    }

    /** Subscribes the target to the templated parent's property when the
        target follows the source; the subscription is never returned, so the
        result is always the empty handle. */
    static method BindToTemplatedParent(hub: EventHub, buildContext: BuildContext, bd: BindDecl)
      returns (r: Result<Handle, BindError>)
      requires WorldValid(hub.world)
      modifies hub
      ensures WorldValid(hub.world)
      ensures var p := ParentStep(old(hub.world), bd, buildContext);
        (r.Failure? ==> p.Failure? && r.error == p.error && hub.world == old(hub.world)) &&
        (r.Success? ==> p.Success? && r.value == EmptyHandle && hub.world == p.value)
    {
      var bag := buildContext.bag;
      if TemplatedParentKey !in bag {
        return Failure(MissingBagEntry(TemplatedParentKey));
      }
      var source := bag[TemplatedParentKey];
      if bd.targetFollowsSource {
        if source.None? {
          return Failure(NullTemplatedParent);
        }
        var parent := source.value;
        if bd.sourceMember !in parent.properties {
          return Failure(MissingMember(bd.sourceMember));
        }
        hub.SetTarget(bd.target, bd.targetMember, parent.properties[bd.sourceMember]);
        BindingLemmas.SubscriptionKeepsValid(hub.world, ParentFeed(bd, parent.id));
        var discarded := hub.Subscribe(ParentFeed(bd, parent.id));
      }
      return Success(EmptyHandle);
    }

    /** Subscribes to the target's data-context changes; the subscription is
        not recorded anywhere. */
    static method BindToObservable(hub: EventHub, od: ObserveDecl)
      requires WorldValid(hub.world)
      modifies hub
      ensures WorldValid(hub.world)
      ensures hub.world == WithSubscription(old(hub.world), WatchObserve(od)).0
    {
      BindingLemmas.SubscriptionKeepsValid(hub.world, WatchObserve(od));
      var discarded := hub.Subscribe(WatchObserve(od));
    }

    /** The handler BindToObservable installs (subscription `watch`), for
        one data-context value. When it throws, the runtime disposes `watch`. */
    static method OnObservedContext(hub: EventHub, od: ObserveDecl, watch: SubId, ctx: Option<ModelObject>)
      returns (outcome: Outcome<BindError>)
      modifies hub
      ensures (hub.world, outcome) == ObserveStep(old(hub.world), od, watch, ctx)
      ensures outcome.Fail? ==> watch !in hub.world.live
    {
      if ctx.None? {
        return Pass;
      }
      outcome := BindSourceObservableToTarget(hub, od, ctx.value);
      if outcome.Fail? {
        // the runtime detaches a handler that throws
        hub.Dispose(watch);
      }
    }

    /** Looks up the observable member and forwards its values into the
        target property. */
    static method BindSourceObservableToTarget(hub: EventHub, od: ObserveDecl, context: ModelObject)
      returns (outcome: Outcome<BindError>)
      modifies hub
      ensures (hub.world, outcome) == ForwardStep(old(hub.world), od, context)
    {
      var name := od.observableName;
      if name !in context.members {
        return Fail(MissingMember(name));
      }
      match context.members[name]
      case Stream(sid) =>
        var forwarding := hub.Subscribe(Forward(od, sid));
        outcome := Pass;
      case Null =>
        outcome := Fail(NullObservable(name));
      case Scalar(_) =>
        outcome := Fail(NotObservable(name));
    }
  }
}
